=== FILE: README.md ===
# Kappa FileSystem, modelled in Dafny

Kappa\FileSystem is a small PHP library that wraps directories and regular
files in objects. A `Directory` or `File` object is bound to a path. Its
methods list, rename, copy, move, fill and delete what lies at that path,
and they report failures as `InvalidArgumentException` or `IOException`.
The repository holds classes from two incompatible revisions. Each one is
modelled as written, not as one hierarchy:

- the `FileSystem` base class, with the STRICT/INTUITIVE constructor,
  `create()`, `isUsable()` and `rename()`;
- the `FileStorage` base class, with `setPath()`, `isCreated()`, the
  `getInfo()` guard and the guarded `rename()`;
- the library's `SplFileInfo` subclass, with the string queries
  `getRelativePath()` and `getFileExtension()`.

The disk is a finite table from canonical paths to nodes (`FsTable`):

- A path is a sequence of name components.
- A node is a file with content, or a directory. Each node carries a
  readable flag and a writable flag.
- The table is well formed: the root is a directory, every other node sits
  in a directory, and names are nonempty.
- One `Disk` object holds the table and is shared by every entity object.

The PHP primitives the library calls are pure functions on the table:
`mkdir`, `rmdir`, `unlink`, `fopen` with mode `w`/`w+`, `fwrite`,
`file_get_contents`, `copy`, `rename` and `realpath`. Each returns `None`
for PHP's `false` and leaves the table unchanged in that case.

The entity classes are Dafny classes. Their methods modify the shared disk
and their own `path` field. An error is a `Result` failure:

- `InvalidArgument` for the library's InvalidArgumentException;
- `IO` for its IOException;
- `PhpRuntime` for an exception PHP raises itself. Examples are an SPL
  iterator that cannot open a directory, and the TypeError of
  `Directory::append` when it copies a directory.

Arguments the source type-checks with `is_string`/`is_bool` are
`Arg<T>`: either `Given(v)` or `WrongType`.

Module layout:

| file | module | source |
|---|---|---|
| php.dfy | `Php` | PHP values, truthiness, errors |
| table.dfy | `FsTable` | the disk and the primitives |
| directory.dfy | `Directories` | src/Kappa/FileSystem/Directory.php |
| file.dfy | `Files` | src/Kappa/FileSystem/File.php |
| filesystem.dfy | `FileSystemBase` | src/Kappa/FileSystem/FileSystem.php |
| filestorage.dfy | `FileStorageBase` | src/Kappa/FileSystem/FileStorage.php |
| splfileinfo.dfy | `PathInfo` | src/Kappa/FileSystem/SplFileInfo.php |

Behaviour of the code that a reader of the library's documentation might
not expect. The model follows the code in each case:

- The `Directory` constructor binds to any existing path, a file included.
  The `File` constructor binds to any existing node that `fopen(…, 'w+')`
  cannot open. Neither constructor fails because the path already exists.
- `Directory::rename` leaves `$this` alone and returns a new object bound
  to the new path. `File::rename` rebinds `$this`.
- `Directory::copy` ignores what `copy()` returns for a file. An unreadable
  file below the source is therefore silently missing from the copy, and
  the copy still succeeds. `Directory::move` then removes the source, so
  that file is lost.
- `Directory::rename` with overwrite true removes an existing target
  directory before it calls `rename()`. Renaming a directory to its own
  name therefore deletes it, and then IOException is raised.
- `Directory::copy(…, overwrite = true)` onto an existing target still
  fails with IO, because `create()` calls `mkdir` on a path that exists.
  So `Directory::move` onto an existing target always fails.
- The ignore list of `Directory::copy` is matched only against the
  top-level names. The recursive `_copy` call passes none, so deeper
  entries with an ignored name are copied.
- The ignore list is searched with `in_array` without the strict flag.
  Two numeric names are compared by value, so ignoring "1" also skips
  entries named "01", " 1" and "1.0".
- `isUsable()` of an object that is neither a File nor a Directory, on a
  readable and writable path, reaches no return statement and yields
  null. `isCreated()` returns false in the same case.
- `file_get_contents` and `md5_file` on a readable directory read
  nothing and yield "" and the digest of "". So `File::read()` and
  `File::compare()` treat a readable directory like an empty file.
- `File::append` tests the old content for PHP truthiness. A file holding
  `"0"` is treated like an empty one: its content is replaced, not
  extended.
- `File::copy` refuses only an existing regular file as target. `File::rename`
  refuses any existing node.
- The library signals every failure with IOException. It has no separate
  "already exists" or "not found" kinds.

## Model

| member | source | states |
|---|---|---|
| FsTable.Mkdir | src/Kappa/FileSystem/Directory.php:258-265 | mkdir succeeds exactly when the parent is a writable directory, the path is new, its name is nonempty and its depth is within the limit. It adds one readable, writable empty directory and keeps the tree well formed. |
| FsTable.Rmdir | src/Kappa/FileSystem/Directory.php:80 | rmdir succeeds exactly on a childless directory other than the root whose parent is writable. It removes that one node. |
| FsTable.Unlink | src/Kappa/FileSystem/File.php:219 | unlink succeeds exactly on a regular file in a writable directory. It removes that one node. |
| FsTable.Open | src/Kappa/FileSystem/File.php:257-266 | fopen w/w+ truncates a writable existing file (w+ also needs it readable) or creates an empty file where a node may be created. It fails on a directory or on an unwritable file. |
| FsTable.PutContents | src/Kappa/FileSystem/File.php:47-49 | fopen+fwrite succeeds exactly when fopen w does. The file then holds exactly the written string, and every other node is unchanged. |
| FsTable.ReadFile | src/Kappa/FileSystem/File.php:101-104 | (definition of the primitive) file_get_contents yields the content of a readable file, "" for a readable directory, and `false` for an unreadable or missing path. |
| FsTable.CopyFile | src/Kappa/FileSystem/File.php:178 | copy succeeds exactly for a readable source file onto a distinct target that is a writable file or can be created. The target then holds the source content and nothing else changes. |
| FsTable.RealPath | src/Kappa/FileSystem/FileStorage.php:31 | (definition of the primitive) realpath of a canonical path is the path itself when a node is there and `false` otherwise. |
| FsTable.Rename | src/Kappa/FileSystem/File.php:125 | rename succeeds exactly under the stated permission and collision conditions, with a nonempty new name. |
| FsTable.RenameWellFormed | src/Kappa/FileSystem/Directory.php:59 | renaming a node, a whole subtree included, keeps the table a well-formed tree. |
| FsTable.RenameMovesNode | src/Kappa/FileSystem/File.php:125 | after rename the node at the new path is the node that was at the old path. Nothing is left at the old path when the two differ. |
| FsTable.RemoveTree | src/Kappa/FileSystem/Directory.php:72-95 | the table with a subtree deleted has exactly the nodes not at or below its root, unchanged, and stays well formed. |
| Directories.Directory.New | src/Kappa/FileSystem/Directory.php:27-34 | a non-string path raises InvalidArgument. An existing path of any kind is bound with no change. Otherwise create() adds one empty directory, or raises IO and changes nothing when mkdir would fail. |
| Directories.Directory.Rename | src/Kappa/FileSystem/Directory.php:43-66 | a non-string name or non-bool overwrite raises InvalidArgument. The target is the sibling named newName. An existing directory there with overwrite false raises IO and changes nothing. With no directory there, success is exactly the success of rename(), with the renamed table. With overwrite true and a removable target, success is exactly the success of rename() on the table with the target subtree removed. A failure there is IO, and the target subtree stays deleted. With a target that cannot be removed, the call fails, and only nodes strictly below the target may be gone. A success returns a new object bound to the target. |
| Directories.SelfRenameDeletesItself | src/Kappa/FileSystem/Directory.php:55-62 | renaming a directory to its own name makes it its own target. Removing that target deletes it, and the rename() that follows fails. |
| Directories.Directory.RenameOnto | src/Kappa/FileSystem/Directory.php:59-63 | rename() then new Directory($newPath): success exactly when rename() succeeds, with the renamed table; otherwise IO and no change. |
| Directories.RenameReplacesTarget | src/Kappa/FileSystem/Directory.php:55-60 | after the target directory is removed and the source renamed onto it, a path at or below the target exists exactly when the matching path below the source did, with that node. Nothing of the old target survives. |
| Directories.Directory.Remove | src/Kappa/FileSystem/Directory.php:72-95 | success exactly when every directory of the subtree can be listed and every node of it, the root included, sits in a writable directory. The disk is then the table with the subtree deleted, and the path becomes null. A failure leaves the path and deletes only nodes strictly below the root. |
| Directories.RemoveStep | src/Kappa/FileSystem/Directory.php:79-87 | deleting a childless node below the root fails exactly when its parent was unwritable at the start. Otherwise the removal stays on track with one node fewer below the root. |
| Directories.EmptiedSubtree | src/Kappa/FileSystem/Directory.php:89-91 | once nothing below the root is left, the final rmdir yields the table with the whole subtree deleted. |
| Directories.Directory.GetContent | src/Kappa/FileSystem/Directory.php:100-113 | fails with PhpRuntime exactly when the directory cannot be listed. Otherwise it yields the map of children with their kinds. |
| Directories.Directory.GetFiles | src/Kappa/FileSystem/Directory.php:118-128 | as getContent, keeping only the files. |
| Directories.Directory.GetDirectories | src/Kappa/FileSystem/Directory.php:133-143 | as getContent, keeping only the directories. |
| Directories.Directory.Collect | src/Kappa/FileSystem/Directory.php:102-112 | the foreach loop builds exactly the selection of the children, in any iteration order. |
| Directories.ContentIsImmediateChildren | src/Kappa/FileSystem/Directory.php:100-113 | a path is listed by getContent exactly when it is a node whose parent is the directory, and it is listed as a File exactly when it is a file. |
| Directories.ListingsPartitionContent | src/Kappa/FileSystem/Directory.php:100-143 | getFiles and getDirectories are disjoint and together make up getContent. All three are empty for an empty directory. |
| Directories.Directory.Copy | src/Kappa/FileSystem/Directory.php:154-172 | a wrong-typed argument raises InvalidArgument. A target that cannot be created raises IO with no change, which covers an existing target whatever overwrite says. A feasible copy succeeds with exactly `Copied`, skipping the top-level names `in_array` finds loosely in the ignore list and every unreadable file. Whenever the target can be created, success or failure, nothing changes outside the new target. |
| Directories.Directory.CopyInto | src/Kappa/FileSystem/Directory.php:235-251 | an unlistable source raises PhpRuntime and changes nothing. From a clean state it succeeds and adds exactly the graft of the source below the target, skipping the top-level names `in_array` finds loosely in the ignore list. Nothing outside the target changes. |
| Directories.Directory.CopyListing | src/Kappa/FileSystem/Directory.php:237-250 | the foreach over the listing taken once: from a clean state it adds exactly the graft of every listed entry, and nothing outside the target changes. |
| Directories.Directory.CopyEntry | src/Kappa/FileSystem/Directory.php:238-250 | one loop pass extends the graft by exactly one listed entry, or by nothing for a name that `in_array` finds loosely in the ignore list. |
| Directories.Directory.CopyFileEntry | src/Kappa/FileSystem/Directory.php:239-243 | copying one file entry always succeeds: the disk becomes copy()'s result, or stays as it was when copy() fails. This extends the graft by exactly that file, or by nothing for an unreadable file. |
| Directories.CopyUnreadableStep | src/Kappa/FileSystem/Directory.php:241 | copy() of an unreadable listed file fails, and the graft goes on without it. |
| Directories.Directory.CopySubdirectory | src/Kappa/FileSystem/Directory.php:244-248 | a subdirectory entry is made with mkdir, raising IO on failure, and filled by a recursive copy with no ignore list. This extends the graft by that whole subtree. |
| Directories.CopyStarts | src/Kappa/FileSystem/Directory.php:168-169 | once the target is made, _copy starts from a clean state, and its graft is `Copied`. |
| Directories.CopyReproducesExactlyUnignored | src/Kappa/FileSystem/Directory.php:238-250 | a node below the source reappears at the same relative path below the target, with its kind and content, exactly when its top-level name is not in the ignored set and it is readable. `Directory::copy` fills the ignored set with the loose `in_array` matches. Deeper names are never filtered, and an unreadable file is silently missing. |
| Directories.CopyKeepsTheRest | src/Kappa/FileSystem/Directory.php:165-171 | a clean copy keeps every existing node unchanged. It adds only the target and nodes below it copied from readable source nodes whose top-level name is not in the ignored set. |
| Php.InArrayOfMembers | src/Kappa/FileSystem/Directory.php:240 | in_array without the strict flag finds every member of the list. For a name that is not a numeric string, it finds exactly the members. |
| Php.NumericNamesMatchLoosely | src/Kappa/FileSystem/Directory.php:245 | loose in_array finds "01", " 1" and "1.0" in the list ["1"], although "01" is not a member. |
| Directories.Directory.Move | src/Kappa/FileSystem/Directory.php:181-196 | a wrong-typed argument raises InvalidArgument. An existing target raises IO with no change, whatever overwrite says. A feasible copy with a removable source ends in `MovedTree`, which loses every unreadable file below the source. A failure that leaves the object bound (the copy failed, or remove() failed) keeps every node outside the target and outside the source's subtree. A success nulls the path and returns a new object bound to the target. |
| Directories.KeptThroughMove | src/Kappa/FileSystem/Directory.php:189-194 | a copy into a new target, followed by a removal of the source that stopped part way, keeps every node that is neither below the target nor below the source. |
| Directories.MoveRelocatesSubtree | src/Kappa/FileSystem/Directory.php:189-194 | after a clean move, every readable node below the source sits at the same relative path below the target, and an unreadable file is lost. Nothing at or below the source remains, and every other node is unchanged. |
| Directories.Directory.Append | src/Kappa/FileSystem/Directory.php:206-228 | an object that is neither File nor Directory, or a non-bool flag, raises InvalidArgument. The target is this directory plus the item's base name. A File is moved or copied with File's guards and outcomes: a move succeeds exactly when copy() and unlink() do, and a failed unlink leaves the copy. A Directory is moved with Directory::move's outcome, including its frame after a failure, while copying it raises PhpRuntime. The result is the item or this directory, as returnNew says. |
| Files.File.New | src/Kappa/FileSystem/File.php:27-34 | a non-string path raises InvalidArgument. An existing node is bound with no change. Otherwise fopen w+ creates an empty file, or IO is raised with no change. |
| Files.File.Overwrite | src/Kappa/FileSystem/File.php:42-54 | truthy content that is neither string nor number raises InvalidArgument. Otherwise success is exactly when fopen w succeeds. The file then holds the textual form of the content (null gives ""), and no other node changes. |
| Files.File.Clean | src/Kappa/FileSystem/File.php:60-67 | on success the file is empty and nothing else changes. On failure IO is raised with no change. |
| Files.File.Read | src/Kappa/FileSystem/File.php:101-104 | yields a string exactly when the path holds a readable node: the content of a file, "" for a directory. |
| Files.Appended | src/Kappa/FileSystem/File.php:84-90 | a truthy old content yields old + EOL-or-space + new. Otherwise the new content is kept as it is. |
| Files.AppendedExtendsOnlyTruthy | src/Kappa/FileSystem/File.php:85-90 | the result is old + separator + new exactly when the old content is truthy. |
| Files.AppendToZeroDropsIt | src/Kappa/FileSystem/File.php:85-89 | appending to a file holding "0" yields the new content alone, not "0" + separator + new. |
| Files.File.Append | src/Kappa/FileSystem/File.php:76-96 | bad content or a non-bool newLine raises InvalidArgument. Otherwise success is exactly when fopen w succeeds, writing `Appended` of the old content, and a failure is IO with no change. An empty file ends up holding exactly the new content. |
| Files.File.Rename | src/Kappa/FileSystem/File.php:113-133 | the target is the sibling named newName. Any existing node there with overwrite false raises IO. Success is exactly when rename() succeeds otherwise, and every failure is IO. The object is then rebound to the target, which holds the former node, and the old path is gone. A failure changes nothing. |
| Files.HashOf | src/Kappa/FileSystem/File.php:138-141 | (definition) the digest exists exactly when file_get_contents yields a string, and is the digest of that string. |
| Files.File.Compare | src/Kappa/FileSystem/File.php:147-154 | two files compare equal exactly when file_get_contents gives the same result for both. |
| Files.File.Copy | src/Kappa/FileSystem/File.php:164-184 | an existing regular file as target with overwrite false raises IO. Success is exactly when copy() succeeds otherwise, and every failure is IO with no change. The target then holds the source's content, the source is unchanged, and the result is a new File at the target or this object. |
| Files.File.Remove | src/Kappa/FileSystem/File.php:217-225 | success exactly when unlink succeeds. It deletes only that node and nulls the path. |
| Files.File.Move | src/Kappa/FileSystem/File.php:193-211 | an existing file at the target with overwrite false raises IO with no change. Otherwise success is exactly when copy() and then unlink() succeed. A failed copy raises IO with no change. A failed unlink raises IO and leaves the copy in place. A success leaves the target holding the source's content, the source gone and the path null. |
| FileSystemBase.Canonical | src/Kappa/FileSystem/FileSystem.php:60 | (definition) realpath of the current path is that path when a node is there and `false` otherwise. |
| FileSystemBase.CreatedUsable | src/Kappa/FileSystem/FileSystem.php:53-64 | an unusable object becomes usable after create() exactly when the creating fopen (File) or mkdir (Directory) succeeds. An object of neither kind never does. |
| FileSystemBase.RenameEntry | src/Kappa/FileSystem/FileSystem.php:104-125 | a same-kind collision without a truthy overwrite raises IO with no change. Outside that case, and unless a Directory meets a directory, the result is whether rename() succeeded, with the renamed or unchanged table. This covers a File over a file with a truthy overwrite. A Directory meeting a directory with a truthy overwrite first removes it. If that removal fails (IO or PhpRuntime), the call fails and only nodes strictly below the target may be gone. Otherwise the outcome is rename() on the cleared table. A true result moves the node to the new path. |
| FileSystemBase.Usable | src/Kappa/FileSystem/FileSystem.php:70-81 | isUsable() read as a truth value holds exactly for a readable, writable node of the object's own kind: a file for a File, a directory for a Directory. It never holds for an object of neither kind. |
| FileSystemBase.FileSystem.IsUsable | src/Kappa/FileSystem/FileSystem.php:70-81 | false when the path is not both writable and readable. Otherwise is_file or is_dir by kind, and null for an object of neither kind. It is truthy exactly when `Usable` holds. |
| FileSystemBase.FileSystem.New | src/Kappa/FileSystem/FileSystem.php:31-45 | a non-string path raises InvalidArgument. A usable path, or any sensitivity other than INTUITIVE, keeps the path and changes nothing. INTUITIVE on an unusable path runs create(). |
| FileSystemBase.FileSystem.Create | src/Kappa/FileSystem/FileSystem.php:51-65 | a usable object returns true and changes nothing. Otherwise it makes an empty file or a directory by kind and takes the realpath. It returns isUsable(), which is truthy exactly when the creating call succeeded. |
| FileSystemBase.FileSystem.Rename | src/Kappa/FileSystem/FileSystem.php:99-126 | a non-string name raises InvalidArgument. Otherwise the RenameEntry outcomes apply for the sibling path. On true the path becomes the new path; on any other result it is unchanged. |
| FileStorageBase.FileStorage.SetPath | src/Kappa/FileSystem/FileStorage.php:29-32 | the stored path is realpath of the argument: the path itself when a node is there, `false` otherwise. |
| FileStorageBase.FileStorage.IsCreated | src/Kappa/FileSystem/FileStorage.php:45-58 | true exactly for a readable, writable node of the object's own kind. It is false, not null, for an object of neither kind. |
| FileStorageBase.FileStorage.GetInfo | src/Kappa/FileSystem/FileStorage.php:45-71 | fails with IO exactly when the object is not created, that is not readable, writable and of its kind. Otherwise it yields the path of a node of that kind. |
| FileStorageBase.FileStorage.Rename | src/Kappa/FileSystem/FileStorage.php:80-112 | an object that is not created raises IO with no change, before the argument is checked. Otherwise the outcome is the same as FileSystem::rename. |
| PathInfo.Trim | src/Kappa/FileSystem/SplFileInfo.php:35 | trim() yields the part of the string left after removing only blanks from its front and its back, with no blank at either end of the result. |
| PathInfo.DeleteAll | src/Kappa/FileSystem/SplFileInfo.php:35 | str_replace with "" never lengthens the string. |
| PathInfo.DeleteAllRemovesWholeCopies | src/Kappa/FileSystem/SplFileInfo.php:35 | str_replace with "" removes a whole number of copies of the pattern. |
| PathInfo.DeleteAllAbsent | src/Kappa/FileSystem/SplFileInfo.php:35 | a string without the pattern comes out unchanged. |
| PathInfo.DeleteAllKeepsOther | src/Kappa/FileSystem/SplFileInfo.php:35 | a character that does not start an occurrence of the pattern is kept, and the scan goes on from the next character. |
| PathInfo.DeleteAllLeading | src/Kappa/FileSystem/SplFileInfo.php:35 | a leading occurrence is deleted and the scan goes on after it. |
| PathInfo.GetRelativePath | src/Kappa/FileSystem/SplFileInfo.php:32-36 | with realpath `false` or "", the result is the trimmed pathname. |
| PathInfo.RelativeOfRootAndRest | src/Kappa/FileSystem/SplFileInfo.php:32-36 | for a pathname root ++ rest where rest does not contain root, the result is trim(rest), leading separator kept. |
| PathInfo.RootDeletedInside | src/Kappa/FileSystem/SplFileInfo.php:35 | the root is deleted wherever it occurs: "/a/b/a" relative to "/a" is "/b". |
| PathInfo.Strrchr | src/Kappa/FileSystem/SplFileInfo.php:43 | strrchr yields `false` exactly when the character is absent. Otherwise it yields the suffix starting at its last occurrence. |
| PathInfo.StrrchrAppend | src/Kappa/FileSystem/SplFileInfo.php:43 | text without the character, appended after it, is appended to the strrchr result. |
| PathInfo.GetFileExtension | src/Kappa/FileSystem/SplFileInfo.php:41-44 | the result is `false` exactly when the pathname has no '.'. Otherwise it is the suffix starting at the last '.', dot included, with no other '.'. |
| PathInfo.ExtensionFromDirectory | src/Kappa/FileSystem/SplFileInfo.php:43 | when the base name has no dot, the "extension" starts at the last dot of the directory part and runs across the separator. |
| PathInfo.ExtensionOfDottedDirectory | src/Kappa/FileSystem/SplFileInfo.php:43 | the extension of "/a.d/f" is ".d/f". |

## Left out

- `Image`, `FileUpload` and `SplFileInfo::isImage` wrap Nette classes and
  image sniffing, which are not part of this model.
- `File::isContained` and `File::replace` depend on the PCRE engine.
  `File::getHash` is MD5. It is modelled as an injective digest of the
  content, so equal digests mean equal contents.
- `Kappa/FileSystem/FileSystem.php` of the older revision only stores a
  path. `exceptions.php` becomes the `Error` datatype.
- `getInfo()` and `getPath()` of the `FileSystem` revision return
  `SplFileInfo` objects. The model uses only the directory part and the
  base name of the path they wrap.
- Symlinks, `realpath` resolution of `.`/`..`, and relative paths: every
  path is canonical and absolute, and `realpath` of a path is that path
  when a node exists there. `realpath(false)` and `realpath("")` are
  modelled as `false`, not as the working directory.
- In `getRelativePath`, `realpath($root)` is a parameter: it takes the
  operating system's answer as given.
- Permission bits beyond one readable and one writable flag per node,
  and the uid of the process. Depth beyond 2048 components stands in for
  the operating system's ENAMETOOLONG.
- Names containing the separator. A new name is a single component, and
  the empty name names the directory itself.
- Content values that are arrays, floats or objects. The values are null,
  booleans, integers and strings, and integers are written in decimal.
- Concurrency and the races the source leaves open between a check and the
  action that follows it.
- The order in which `FilesystemIterator` and `RecursiveDirectoryIterator`
  yield entries. The loops pick any remaining entry, and `remove()` picks
  any childless one, which covers every child-first order.
- Directories.Directory.Remove: when some directory of the subtree cannot
  be listed, the model fails with PhpRuntime before deleting anything. The
  PHP iterator fails on reaching that directory, after it may already have
  deleted some entries.
- Directories.Directory.Copy: after a mid-way failure of `_copy`, the
  contract states that nothing outside the target changed, but not which
  entries were already copied.
- Directories.Directory.Move: success is stated for the feasible case, a
  target that can be made and a source whose copy can be removed. After
  another failure, the contract keeps only the nodes outside the target
  and outside the source's subtree, and does not say which nodes below
  them were copied or deleted. The clause is guarded by the path still
  being bound, which excludes only a failure of the final
  `new Directory($target)` after a successful remove(). That case cannot
  arise: copy() into the source's own subtree never returns normally,
  because each level lists the directory it has just made and recurses
  into it until mkdir fails, so remove() never runs. The model does not
  prove this, and states no frame for that case.
- Directories.Directory.Append: for a moved Directory, the outcome is stated
  only for the feasible case. A failure part way through a move is left
  as Directory::move leaves it.
- `FileStorage::rename` removes an existing target directory with
  `(new Directory($newPath))->remove()`. The Directory of the FileStorage
  revision is not part of this model, so the model assumes it removes
  the same way as `Directory::remove` of the other revision.
- FileSystemBase.RenameEntry: when removing the existing target directory
  fails, the contract bounds what was deleted (only nodes strictly below
  the target) but does not say exactly which nodes are gone.
- Directories.Directory.Copy: the ignore list holds strings only. PHP
  would also accept `true`, `null` or integers there and compare them
  loosely with the names. Numeric names are compared as exact decimals,
  without PHP's float rounding and overflow, and PHP 5's hexadecimal
  numeric strings are not modelled.

=== FILE: directory.dfy ===
/** Kappa\FileSystem\Directory: an object bound to one directory of the disk,
    whose operations list, rename, copy, move, fill and delete the subtree
    below it. */
module Directories {
  import opened Php
  import opened FsTable
  import Files

  /** What a directory listing holds for an entry: a File or a Directory
      object bound to that entry's path. */
  datatype Listed = ListedFile | ListedDirectory

  /** The object handed to append(). */
  datatype Entity = FileEntity(file: Files.File) | DirectoryEntity(dir: Directory) | OtherObject

  /** The objects an entity refers to. */
  function Objects(e: Entity): set<object> {
    match e
    case FileEntity(f) => {f}
    case DirectoryEntity(d) => {d}
    case OtherObject => {}
  }

  /** `$dir . DIRECTORY_SEPARATOR . $name`, where a null directory reads as "". */
  function Within(dir: Option<Path>, name: Name): Path {
    Child(if dir.None? then [] else dir.value, name)
  }

  /** The entries of cs kept by a listing that collects files (when files
      holds) and directories (when dirs holds), keyed by path. */
  function Select(t: Table, cs: set<Path>, files: bool, dirs: bool): map<Path, Listed> {
    map c | c in cs && ((files && IsFile(t, c)) || (dirs && IsDir(t, c))) ::
      if IsFile(t, c) then ListedFile else ListedDirectory
  }

  /** getContent() of the directory d. */
  function ContentOf(t: Table, d: Path): map<Path, Listed> {
    Select(t, Children(t, d), true, true)
  }

  /** getFiles() of the directory d. */
  function FilesOf(t: Table, d: Path): map<Path, Listed> {
    Select(t, Children(t, d), true, false)
  }

  /** getDirectories() of the directory d. */
  function DirectoriesOf(t: Table, d: Path): map<Path, Listed> {
    Select(t, Children(t, d), false, true)
  }

  /** getContent() lists exactly the nodes one level below d, each with its
      kind. */
  lemma ContentIsImmediateChildren(t: Table, d: Path, c: Path)
    requires WellFormed(t)
    ensures c in ContentOf(t, d) <==> c in t && c != [] && Parent(c) == d
    ensures c in ContentOf(t, d) ==> (ContentOf(t, d)[c] == ListedFile <==> IsFile(t, c))
  {
    if c in t && c != [] && Parent(c) == d {
      assert d < c;
    }
  }

  /** getFiles() and getDirectories() split getContent() in two disjoint
      parts, and all three are empty for an empty directory. */
  lemma ListingsPartitionContent(t: Table, d: Path)
    ensures FilesOf(t, d).Keys !! DirectoriesOf(t, d).Keys
    ensures FilesOf(t, d).Keys + DirectoriesOf(t, d).Keys == ContentOf(t, d).Keys
    ensures forall c | c in ContentOf(t, d) :: (ContentOf(t, d)[c] == ListedFile <==> c in FilesOf(t, d))
    ensures Children(t, d) == {} ==> ContentOf(t, d) == FilesOf(t, d) == DirectoriesOf(t, d) == map[]
  {
    assert FilesOf(t, d).Keys + DirectoriesOf(t, d).Keys == ContentOf(t, d).Keys;
  }

  /** Nodes of t strictly below r that the recursive iterator must open. */
  predicate SubtreeListable(t: Table, p: Option<Path>) {
    Listable(t, p) && forall q | q in t && p.value < q && IsDir(t, q) :: t[q].readable
  }

  /** remove() deletes everything: the iterator can open every directory of
      the subtree and every node of it, the root included, sits in a
      writable directory. */
  ghost predicate Removable(t: Table, p: Option<Path>) {
    && SubtreeListable(t, p)
    && p.value != [] && IsWritable(t, Parent(p.value))
    && forall q | q in t && p.value < q :: IsWritable(t, Parent(q))
  }

  /** t is t0 with some nodes strictly below p deleted. */
  ghost predicate PartlyRemoved(t0: Table, t: Table, p: Option<Path>) {
    && t.Keys <= t0.Keys
    && (forall q | q in t :: t[q] == t0[q])
    && forall q | q in t0 && (p.None? || !(p.value < q)) :: q in t
  }

  /** The state of remove() part way: t0 less some nodes strictly below
      root, each of which had a writable parent. */
  ghost predicate RemovalProgress(t0: Table, t: Table, root: Path) {
    && WellFormed(t)
    && PartlyRemoved(t0, t, Some(root))
    && forall q | q in t0 && q !in t :: root < q && IsWritable(t0, Parent(q))
  }

  /** Deleting one childless node below root: the deletion fails exactly
      when its parent was not writable to begin with, and otherwise keeps
      the removal on track with that node gone. */
  lemma RemoveStep(t0: Table, t: Table, root: Path, q: Path)
    requires RemovalProgress(t0, t, root) && q in Below(t, root) && Children(t, q) == {}
    ensures var next := if IsDir(t, q) then Rmdir(t, Some(q)) else Unlink(t, Some(q));
            && (next.None? ==> q in t0 && root < q && !IsWritable(t0, Parent(q)))
            && (next.Some? ==> RemovalProgress(t0, next.value, root) && Below(next.value, root) == Below(t, root) - {q})
  {
    assert Parent(q) in t && t[Parent(q)] == t0[Parent(q)];
  }

  /** Once every node strictly below root has gone and nothing else has,
      taking root out leaves RemoveTree. */
  lemma EmptiedSubtree(t0: Table, t: Table, root: Path)
    requires PartlyRemoved(t0, t, Some(root)) && Below(t, root) == {}
    ensures t - {root} == RemoveTree(t0, root)
  {
    var u := RemoveTree(t0, root);
    forall q ensures (q in t - {root} <==> q in u) {
      if q in t && q != root {
        assert q !in Below(t, root);
      }
    }
    assert (t - {root}).Keys == u.Keys;
  }

  /** t agrees with t0 at r and everywhere outside the subtree at r. */
  ghost predicate SameOutside(t0: Table, t: Table, r: Path) {
    && (forall q | q in t0 && !(r < q) :: q in t && t[q] == t0[q])
    && (forall q | q in t && !(r < q) :: q in t0)
  }

  /** SameOutside composes when the second change lies inside the first. */
  lemma SameOutsideTrans(t0: Table, t1: Table, t2: Table, r: Path, r2: Path)
    requires SameOutside(t0, t1, r) && SameOutside(t1, t2, r2) && r <= r2
    ensures SameOutside(t0, t2, r)
  {
  }

  /** A change that creates or rewrites one node b strictly below r. */
  lemma ChangedAt(t: Table, u: Table, b: Path, r: Path)
    requires r < b && u.Keys == t.Keys + {b} && forall q | q in t && q != b :: u[q] == t[q]
    ensures SameOutside(t, u, r)
  {
  }

  /** A node of a listing is a file or a directory, as the listing says. */
  lemma ListedKind(t: Table, d: Path, c: Path)
    requires c in ContentOf(t, d)
    ensures c in Children(t, d) && (IsFile(t, c) || IsDir(t, c))
    ensures ContentOf(t, d)[c] == ListedFile <==> IsFile(t, c)
  {
  }

  /** A node as copy() or mkdir() makes it: readable and writable. */
  function Fresh(n: Node): (m: Node)
    ensures m.FileNode? == n.FileNode? && m.readable && m.writable
    ensures n.FileNode? ==> m.content == n.content
  {
    match n
    case FileNode(c, _, _) => FileNode(c, true, true)
    case DirNode(_, _) => DirNode(true, true)
  }

  /** The names in_array($name, $ignore) finds in an ignore list: the names
      equal to an entry under PHP's loose comparison. */
  ghost function Ignored(ignore: seq<Name>): iset<Name> {
    iset n | InArray(n, ignore)
  }

  /** An empty ignore list ignores nothing. */
  lemma NothingIgnored()
    ensures Ignored([]) == iset{}
  {
    forall n | n in Ignored([]) ensures false {
    }
  }

  /** The paths _copy(src, dst, ignore) creates below dst once it has handled
      the top-level entries tops: every readable node below an entry of tops
      whose name is not in the ignored set, carried over to dst. An unreadable
      file is missing, because _copy goes on when copy() fails. */
  ghost function GraftKeys(t: Table, src: Path, dst: Path, ignore: iset<Name>, tops: set<Path>): set<Path> {
    set q | q in t && src < q && src + [q[|src|]] in tops && q[|src|] !in ignore && t[q].readable :: Rebase(q, src, dst)
  }

  /** The nodes _copy creates below dst, with the content of their sources. */
  ghost function Graft(t: Table, src: Path, dst: Path, ignore: iset<Name>, tops: set<Path>): Table {
    map k | k in GraftKeys(t, src, dst, ignore, tops) :: Fresh(t[src + k[|dst|..]])
  }

  /** Where the grafted nodes come from. */
  lemma GraftAt(t: Table, src: Path, dst: Path, ignore: iset<Name>, tops: set<Path>, k: Path)
    ensures k in Graft(t, src, dst, ignore, tops) <==>
              dst < k && src + k[|dst|..] in t && src + [k[|dst|]] in tops && k[|dst|] !in ignore
              && t[src + k[|dst|..]].readable
    ensures k in Graft(t, src, dst, ignore, tops) ==> Graft(t, src, dst, ignore, tops)[k] == Fresh(t[src + k[|dst|..]])
  {
    if dst < k && src + k[|dst|..] in t && src + [k[|dst|]] in tops && k[|dst|] !in ignore && t[src + k[|dst|..]].readable {
      var q := src + k[|dst|..];
      assert q[|src|] == k[|dst|];
      assert Rebase(q, src, dst) == k;
    }
    if k in GraftKeys(t, src, dst, ignore, tops) {
      var q :| q in t && src < q && src + [q[|src|]] in tops && q[|src|] !in ignore && t[q].readable && k == Rebase(q, src, dst);
      assert q == src + k[|dst|..];
      assert q[|src|] == k[|dst|];
    }
  }

  /** Two prefixes of one path are comparable. */
  lemma PrefixesComparable(x: Path, y: Path, z: Path)
    requires x <= z && y <= z
    ensures x <= y || y <= x
  {
    if |x| <= |y| {
      assert x == y[..|x|];
    } else {
      assert y == x[..|y|];
    }
  }

  /** The first component of c + k[|b|..] below c is the first component of k below b. */
  lemma FirstStepBelow(c: Path, b: Path, k: Path)
    requires b < k
    ensures (c + k[|b|..])[..|c| + 1] == c + [k[|b|]]
  {
  }

  /** Handling one more top-level entry c adds the entry itself and the
      whole subtree below it, with the ignore list dropped. */
  lemma GraftStep(t: Table, src: Path, dst: Path, ignore: iset<Name>, done: set<Path>, c: Path)
    requires WellFormed(t) && c in Children(t, src) && c[|src|] !in ignore && t[c].readable
    ensures Graft(t, src, dst, ignore, done + {c})
            == Graft(t, src, dst, ignore, done)[dst + [c[|src|]] := Fresh(t[c])]
               + Graft(t, c, dst + [c[|src|]], iset{}, Children(t, c))
  {
    var b := dst + [c[|src|]];
    var g1 := Graft(t, src, dst, ignore, done + {c});
    var rhs := Graft(t, src, dst, ignore, done)[b := Fresh(t[c])] + Graft(t, c, b, iset{}, Children(t, c));
    forall k ensures (k in g1 <==> k in rhs) && (k in g1 ==> g1[k] == rhs[k]) {
      GraftStepAt(t, src, dst, ignore, done, c, k);
    }
    assert g1 == rhs;
  }

  /** GraftStep, one path at a time. */
  lemma GraftStepAt(t: Table, src: Path, dst: Path, ignore: iset<Name>, done: set<Path>, c: Path, k: Path)
    requires WellFormed(t) && c in Children(t, src) && c[|src|] !in ignore && t[c].readable
    ensures var g1 := Graft(t, src, dst, ignore, done + {c});
            var rhs := Graft(t, src, dst, ignore, done)[dst + [c[|src|]] := Fresh(t[c])]
                       + Graft(t, c, dst + [c[|src|]], iset{}, Children(t, c));
            (k in g1 <==> k in rhs) && (k in g1 ==> g1[k] == rhs[k])
  {
    var b := dst + [c[|src|]];
    if b < k {
      GraftStepBelow(t, src, dst, ignore, done, c, k);
    } else if k == b {
      GraftStepEntry(t, src, dst, ignore, done, c);
    } else {
      GraftStepElsewhere(t, src, dst, ignore, done, c, k);
    }
  }

  lemma GraftStepBelow(t: Table, src: Path, dst: Path, ignore: iset<Name>, done: set<Path>, c: Path, k: Path)
    requires WellFormed(t) && c in Children(t, src) && c[|src|] !in ignore && t[c].readable
    requires dst + [c[|src|]] < k
    ensures var gc := Graft(t, c, dst + [c[|src|]], iset{}, Children(t, c));
            && (k in Graft(t, src, dst, ignore, done + {c}) <==> k in gc)
            && (k in Graft(t, src, dst, ignore, done) ==> k in gc)
            && (k in gc ==> Graft(t, src, dst, ignore, done + {c})[k] == gc[k])
  {
    var name := c[|src|];
    var b := dst + [name];
    assert c == src + [name];
    FirstStepOf(dst, name, k);
    ThroughEntry(src, dst, name, k);
    GraftAt(t, src, dst, ignore, done, k);
    GraftAt(t, src, dst, ignore, done + {c}, k);
    GraftAt(t, c, b, iset{}, Children(t, c), k);
    var q := src + k[|dst|..];
    if q in t {
      ChildOfBelow(t, c, q);
      FirstStepBelow(c, b, k);
    }
  }

  lemma GraftStepEntry(t: Table, src: Path, dst: Path, ignore: iset<Name>, done: set<Path>, c: Path)
    requires WellFormed(t) && c in Children(t, src) && c[|src|] !in ignore && t[c].readable
    ensures var b := dst + [c[|src|]];
            && b in Graft(t, src, dst, ignore, done + {c})
            && Graft(t, src, dst, ignore, done + {c})[b] == Fresh(t[c])
            && b !in Graft(t, c, b, iset{}, Children(t, c))
  {
    var name := c[|src|];
    var b := dst + [name];
    assert c == src + [name];
    assert b[|dst|..] == [name];
    GraftAt(t, src, dst, ignore, done + {c}, b);
    GraftAt(t, c, b, iset{}, Children(t, c), b);
  }

  lemma GraftStepElsewhere(t: Table, src: Path, dst: Path, ignore: iset<Name>, done: set<Path>, c: Path, k: Path)
    requires WellFormed(t) && c in Children(t, src) && c[|src|] !in ignore && t[c].readable
    requires !(dst + [c[|src|]] <= k)
    ensures k !in Graft(t, c, dst + [c[|src|]], iset{}, Children(t, c))
    ensures k in Graft(t, src, dst, ignore, done + {c}) <==> k in Graft(t, src, dst, ignore, done)
    ensures k in Graft(t, src, dst, ignore, done) ==>
              Graft(t, src, dst, ignore, done + {c})[k] == Graft(t, src, dst, ignore, done)[k]
  {
    var name := c[|src|];
    var b := dst + [name];
    assert c == src + [name];
    if dst < k {
      OtherFirstStep(dst, k, name);
      assert src + [k[|dst|]] != c;
    }
    GraftAt(t, src, dst, ignore, done, k);
    GraftAt(t, src, dst, ignore, done + {c}, k);
    GraftAt(t, c, b, iset{}, Children(t, c), k);
  }

  /** A path below dst but not below dst + [name] leaves dst by another name. */
  lemma OtherFirstStep(dst: Path, k: Path, name: Name)
    requires dst < k && !(dst + [name] <= k)
    ensures k[|dst|] != name
  {
    assert k[..|dst| + 1] == k[..|dst|] + [k[|dst|]];
  }

  /** The source of a path below the copy of entry n of src, seen from src
      or from the entry itself. */
  lemma ThroughEntry(src: Path, dst: Path, n: Name, k: Path)
    requires dst + [n] < k
    ensures src + k[|dst|..] == (src + [n]) + k[|dst| + 1..]
  {
    FirstStepOf(dst, n, k);
    assert k[|dst|..] == [n] + k[|dst| + 1..];
  }

  /** A prefix of dst + [n] no longer than dst is a prefix of dst. */
  lemma PrefixOfAppended(s: Path, dst: Path, n: Name)
    ensures s <= dst + [n] && |s| <= |dst| ==> s <= dst
  {
    if s <= dst + [n] && |s| <= |dst| {
      assert (dst + [n])[..|s|] == dst[..|s|];
    }
  }

  /** A path at or below dst + [n] leaves dst by the name n. */
  lemma FirstStepOf(dst: Path, n: Name, q: Path)
    ensures dst + [n] <= q ==> dst < q && q[|dst|] == n
  {
    if dst + [n] <= q {
      assert q[..|dst| + 1] == dst + [n];
    }
  }

  /** An ignored top-level entry adds nothing, and neither does an
      unreadable file. */
  lemma GraftSkip(t: Table, src: Path, dst: Path, ignore: iset<Name>, done: set<Path>, c: Path)
    requires c in Children(t, src)
    requires c[|src|] in ignore || (WellFormed(t) && IsFile(t, c) && !t[c].readable)
    ensures Graft(t, src, dst, ignore, done + {c}) == Graft(t, src, dst, ignore, done)
  {
    var g0 := Graft(t, src, dst, ignore, done);
    var g1 := Graft(t, src, dst, ignore, done + {c});
    forall k ensures (k in g1 <==> k in g0) && (k in g1 ==> g1[k] == g0[k]) {
      GraftSkipAt(t, src, dst, ignore, done, c, k);
    }
    assert g1 == g0;
  }

  /** GraftSkip, one path at a time. */
  lemma GraftSkipAt(t: Table, src: Path, dst: Path, ignore: iset<Name>, done: set<Path>, c: Path, k: Path)
    requires c in Children(t, src)
    requires c[|src|] in ignore || (WellFormed(t) && IsFile(t, c) && !t[c].readable)
    ensures var g0 := Graft(t, src, dst, ignore, done);
            var g1 := Graft(t, src, dst, ignore, done + {c});
            (k in g1 <==> k in g0) && (k in g1 ==> g1[k] == g0[k])
  {
    GraftAt(t, src, dst, ignore, done, k);
    GraftAt(t, src, dst, ignore, done + {c}, k);
    if dst < k && src + [k[|dst|]] == c && c[|src|] !in ignore {
      var q := src + k[|dst|..];
      assert q == c + k[|dst| + 1..];
      if q != c {
        NothingBelow(t, c);
        assert c < q;
      }
    }
  }

  /** Nothing is grafted below a file. */
  lemma GraftBelowFile(t: Table, c: Path, b: Path)
    requires WellFormed(t) && IsFile(t, c)
    ensures Graft(t, c, b, iset{}, Children(t, c)) == map[]
  {
    NothingBelow(t, c);
    forall k | k in Graft(t, c, b, iset{}, Children(t, c)) ensures false {
      GraftAt(t, c, b, iset{}, Children(t, c), k);
    }
  }

  /** The graft of a whole directory depends only on the nodes below it. */
  lemma GraftLocal(t1: Table, t2: Table, src: Path, dst: Path, ignore: iset<Name>)
    requires forall q | src <= q :: (q in t1 <==> q in t2) && (q in t1 ==> t1[q] == t2[q])
    ensures Graft(t1, src, dst, ignore, Children(t1, src)) == Graft(t2, src, dst, ignore, Children(t2, src))
  {
    var g1 := Graft(t1, src, dst, ignore, Children(t1, src));
    var g2 := Graft(t2, src, dst, ignore, Children(t2, src));
    forall k ensures (k in g1 <==> k in g2) && (k in g1 ==> g1[k] == g2[k]) {
      GraftAt(t1, src, dst, ignore, Children(t1, src), k);
      GraftAt(t2, src, dst, ignore, Children(t2, src), k);
      if dst < k {
        assert src <= src + [k[|dst|]];
        assert src <= src + k[|dst|..];
      }
    }
    assert g1 == g2;
  }

  /** Map algebra for CopyFileStep, kept apart so that its proof stays
      small: adding no nodes changes nothing. */
  lemma NoneAdded(g: Table)
    ensures g + map[] == g
  {
  }

  /** Map algebra for CopyFileStep: overriding a key after a union
      overrides it in the added part. */
  lemma UpdateAfterUnion(a: Table, g: Table, k: Path, v: Node)
    ensures (a + g)[k := v] == a + g[k := v]
  {
  }

  /** Map algebra for CopyDirectoryDone, kept apart so that its proof stays
      small: an override followed by a union regroups around the base
      table. */
  lemma UnionUpdate(a: Table, g: Table, k: Path, v: Node, h: Table)
    ensures (a + g)[k := v] + h == a + (g[k := v] + h)
  {
  }

  /** What a failed move() keeps: every node of t0 that lies neither below
      the target nor below the source, unchanged. */
  ghost predicate KeptOutside(t0: Table, t: Table, target: Path, src: Option<Path>) {
    forall q | q in t0 && !(target < q) && (src.None? || !(src.value < q)) :: q in t && t[q] == t0[q]
  }

  /** A copy into a new target followed by a partial removal of the source
      keeps everything else. */
  lemma KeptThroughMove(t0: Table, t1: Table, t2: Table, target: Path, src: Option<Path>)
    requires target !in t0
    requires SameOutside(t0[target := DirNode(true, true)], t1, target)
    requires t2 == t1 || PartlyRemoved(t1, t2, src)
    ensures KeptOutside(t0, t2, target, src)
  {
    forall q | q in t0 && !(target < q) && (src.None? || !(src.value < q))
      ensures q in t2 && t2[q] == t0[q]
    {
      assert q != target;
      assert q in t1 && t1[q] == t0[q];
    }
  }

  /** The state in which _copy(src, dst, ignore) copies cleanly: src can be
      listed, every directory below it can be listed, no copy is too deep,
      dst is an empty writable directory and does not lie inside src. A file
      below src need not be readable: its copy() fails and _copy goes on. */
  ghost predicate CopyReady(t: Table, src: Option<Path>, dst: Path) {
    && Listable(t, src)
    && (forall q | q in t && src.value < q :: (IsDir(t, q) ==> t[q].readable) && |dst| + |q| - |src.value| <= MaxDepth)
    && IsDir(t, dst) && t[dst].writable
    && (forall q | q in t :: !(dst < q))
    && !(src.value <= dst)
  }

  /** The state of _copy after the entries done: from a clean start, the
      table is the start table plus their graft. */
  ghost predicate CopiedSoFar(t0: Table, s: Path, dst: Path, ignore: iset<Name>, done: set<Path>, t: Table) {
    CopyReady(t0, Some(s), dst) ==> t == t0 + Graft(t0, s, dst, ignore, done)
  }

  /** Before the first entry nothing has been grafted. */
  lemma GraftOfNothing(t0: Table, s: Path, dst: Path, ignore: iset<Name>)
    ensures t0 + Graft(t0, s, dst, ignore, {}) == t0
  {
    forall k | k in Graft(t0, s, dst, ignore, {}) ensures false {
      GraftAt(t0, s, dst, ignore, {}, k);
    }
    assert t0 + map[] == t0;
  }

  /** getContent() lists every child: each node is a file or a directory. */
  lemma ContentCoversChildren(t: Table, d: Path)
    ensures ContentOf(t, d).Keys == Children(t, d)
  {
  }

  /** Copying one listed readable file of a clean copy is the graft step. */
  lemma CopyFileStep(t0: Table, s: Path, dst: Path, ignore: iset<Name>, done: set<Path>, c: Path)
    requires WellFormed(t0) && CopyReady(t0, Some(s), dst)
    requires c in Children(t0, s) && c !in done && IsFile(t0, c) && c[|s|] !in ignore && t0[c].readable
    ensures CopyFile(t0 + Graft(t0, s, dst, ignore, done), Some(c), Child(dst, c[|s|]))
            == Some(t0 + Graft(t0, s, dst, ignore, done + {c}))
  {
    var b := dst + [c[|s|]];
    var g0 := Graft(t0, s, dst, ignore, done);
    CopyFileMakesEntry(t0, s, dst, ignore, done, c);
    GraftStep(t0, s, dst, ignore, done, c);
    GraftBelowFile(t0, c, b);
    NoneAdded(g0[b := Fresh(t0[c])]);
    UpdateAfterUnion(t0, g0, b, Fresh(t0[c]));
  }

  /** copy() of one listed readable file of a clean copy creates its fresh
      copy. */
  lemma CopyFileMakesEntry(t0: Table, s: Path, dst: Path, ignore: iset<Name>, done: set<Path>, c: Path)
    requires WellFormed(t0) && CopyReady(t0, Some(s), dst)
    requires c in Children(t0, s) && c !in done && IsFile(t0, c) && c[|s|] !in ignore && t0[c].readable
    ensures var cur := t0 + Graft(t0, s, dst, ignore, done);
            CopyFile(cur, Some(c), Child(dst, c[|s|])) == Some(cur[dst + [c[|s|]] := Fresh(t0[c])])
  {
    var name := c[|s|];
    ChildOfListing(t0, s, c);
    var b := dst + [name];
    var g0 := Graft(t0, s, dst, ignore, done);
    var cur := t0 + g0;
    GraftAt(t0, s, dst, ignore, done, c);
    GraftAt(t0, s, dst, ignore, done, b);
    GraftAt(t0, s, dst, ignore, done, dst);
    assert b !in t0;
    assert b !in cur;
    assert CanCreate(cur, b);
  }

  /** copy() of one listed unreadable file of a clean copy fails, and the
      graft goes on without it. */
  lemma CopyUnreadableStep(t0: Table, s: Path, dst: Path, ignore: iset<Name>, done: set<Path>, c: Path)
    requires WellFormed(t0) && CopyReady(t0, Some(s), dst)
    requires c in Children(t0, s) && IsFile(t0, c) && !t0[c].readable
    ensures CopyFile(t0 + Graft(t0, s, dst, ignore, done), Some(c), Child(dst, c[|s|])).None?
    ensures t0 + Graft(t0, s, dst, ignore, done + {c}) == t0 + Graft(t0, s, dst, ignore, done)
  {
    GraftAt(t0, s, dst, ignore, done, c);
    GraftSkip(t0, s, dst, ignore, done, c);
  }

  /** Making the directory for one listed subdirectory of a clean copy
      succeeds and leaves a state in which the recursive copy is clean. */
  lemma CopyDirectoryReady(t0: Table, s: Path, dst: Path, ignore: iset<Name>, done: set<Path>, c: Path)
    requires WellFormed(t0) && CopyReady(t0, Some(s), dst)
    requires c in Children(t0, s) && c !in done && IsDir(t0, c) && c[|s|] !in ignore
    ensures var cur := t0 + Graft(t0, s, dst, ignore, done);
            && Mkdir(cur, Some(Child(dst, c[|s|]))) == Some(cur[dst + [c[|s|]] := DirNode(true, true)])
            && CopyReady(cur[dst + [c[|s|]] := DirNode(true, true)], Some(c), dst + [c[|s|]])
  {
    var b := dst + [c[|s|]];
    var cur := t0 + Graft(t0, s, dst, ignore, done);
    CopyMakesDirectory(t0, s, dst, ignore, done, c);
    SubdirectoryUntouched(t0, s, dst, ignore, done, c);
    NothingBelowNewEntry(t0, s, dst, ignore, done, c);
    ChildOfListing(t0, s, c);
    ReadyAfterMkdir(t0, s, dst, c, cur[b := DirNode(true, true)]);
  }

  /** A table that agrees with t0 at and below a listed subdirectory c and
      holds a fresh empty directory for its copy is clean for copying c. */
  lemma ReadyAfterMkdir(t0: Table, s: Path, dst: Path, c: Path, t1: Table)
    requires CopyReady(t0, Some(s), dst)
    requires c in t0 && IsDir(t0, c) && |c| == |s| + 1 && s < c
    requires forall q | q in t1 && c <= q :: q in t0 && t1[q] == t0[q]
    requires c in t1
    requires dst + [c[|s|]] in t1 && t1[dst + [c[|s|]]] == DirNode(true, true)
    requires forall q | q in t1 :: !(dst + [c[|s|]] < q)
    ensures CopyReady(t1, Some(c), dst + [c[|s|]])
  {
    var b := dst + [c[|s|]];
    assert c == s + [c[|s|]] && s <= c;
    PrefixOfAppended(s, dst, c[|s|]);
    forall q | q in t1 && c < q
      ensures (IsDir(t1, q) ==> t1[q].readable) && |b| + |q| - |c| <= MaxDepth
    {
      assert s < q;
    }
  }

  /** mkdir() of the copy of one listed subdirectory succeeds. */
  lemma CopyMakesDirectory(t0: Table, s: Path, dst: Path, ignore: iset<Name>, done: set<Path>, c: Path)
    requires WellFormed(t0) && CopyReady(t0, Some(s), dst)
    requires c in Children(t0, s) && c !in done && c[|s|] !in ignore
    ensures var cur := t0 + Graft(t0, s, dst, ignore, done);
            Mkdir(cur, Some(Child(dst, c[|s|]))) == Some(cur[dst + [c[|s|]] := DirNode(true, true)])
  {
    var name := c[|s|];
    ChildOfListing(t0, s, c);
    var b := dst + [name];
    var cur := t0 + Graft(t0, s, dst, ignore, done);
    GraftAt(t0, s, dst, ignore, done, c);
    GraftAt(t0, s, dst, ignore, done, b);
    GraftAt(t0, s, dst, ignore, done, dst);
    assert b !in t0;
    assert CanCreate(cur, b);
  }

  /** Nothing at or below a listed entry of the source is grafted over. */
  lemma SubdirectoryUntouched(t0: Table, s: Path, dst: Path, ignore: iset<Name>, done: set<Path>, c: Path)
    requires WellFormed(t0) && CopyReady(t0, Some(s), dst)
    requires c in Children(t0, s)
    ensures var t1 := (t0 + Graft(t0, s, dst, ignore, done))[dst + [c[|s|]] := DirNode(true, true)];
            forall q | q in t1 && c <= q :: q in t0 && t1[q] == t0[q]
  {
    var b := dst + [c[|s|]];
    var t1 := (t0 + Graft(t0, s, dst, ignore, done))[b := DirNode(true, true)];
    forall q | q in t1 && c <= q
      ensures q in t0 && t1[q] == t0[q]
    {
      GraftAt(t0, s, dst, ignore, done, q);
      if dst < q || q == b {
        PrefixesComparable(c, dst, q);
      }
    }
  }

  /** The new copy of a listed subdirectory starts out empty. */
  lemma NothingBelowNewEntry(t0: Table, s: Path, dst: Path, ignore: iset<Name>, done: set<Path>, c: Path)
    requires CopyReady(t0, Some(s), dst)
    requires c in Children(t0, s) && c !in done
    ensures var t1 := (t0 + Graft(t0, s, dst, ignore, done))[dst + [c[|s|]] := DirNode(true, true)];
            forall q | q in t1 :: !(dst + [c[|s|]] < q)
  {
    var b := dst + [c[|s|]];
    var t1 := (t0 + Graft(t0, s, dst, ignore, done))[b := DirNode(true, true)];
    forall q | q in t1 ensures !(b < q) {
      GraftAt(t0, s, dst, ignore, done, q);
      FirstStepOf(dst, c[|s|], q);
      assert c == s + [c[|s|]];
    }
  }

  /** After the recursive copy of one listed subdirectory, the state is the
      graft with that subdirectory handled. */
  lemma CopyDirectoryDone(t0: Table, s: Path, dst: Path, ignore: iset<Name>, done: set<Path>, c: Path)
    requires WellFormed(t0) && CopyReady(t0, Some(s), dst)
    requires c in Children(t0, s) && c !in done && IsDir(t0, c) && c[|s|] !in ignore
    ensures var t1 := (t0 + Graft(t0, s, dst, ignore, done))[dst + [c[|s|]] := DirNode(true, true)];
            t1 + Graft(t1, c, dst + [c[|s|]], iset{}, Children(t1, c)) == t0 + Graft(t0, s, dst, ignore, done + {c})
  {
    var name := c[|s|];
    var b := dst + [name];
    var g0 := Graft(t0, s, dst, ignore, done);
    var t1 := (t0 + g0)[b := DirNode(true, true)];
    forall q | c <= q ensures (q in t1 <==> q in t0) && (q in t1 ==> t1[q] == t0[q]) {
      GraftAt(t0, s, dst, ignore, done, q);
      if dst < q {
        PrefixesComparable(c, dst, q);
      }
      if q == b {
        PrefixesComparable(c, dst, q);
      }
    }
    GraftLocal(t1, t0, c, b, iset{});
    GraftStep(t0, s, dst, ignore, done, c);
    UnionUpdate(t0, g0, b, DirNode(true, true), Graft(t0, c, b, iset{}, Children(t0, c)));
  }

  /** An ignored or a vanished entry leaves the graft as it was. */
  lemma CopySkipStep(t0: Table, s: Path, dst: Path, ignore: iset<Name>, done: set<Path>, c: Path)
    requires c in Children(t0, s) && c[|s|] in ignore
    ensures t0 + Graft(t0, s, dst, ignore, done + {c}) == t0 + Graft(t0, s, dst, ignore, done)
  {
    GraftSkip(t0, s, dst, ignore, done, c);
  }

  /** The state in which copy() makes the target and copies cleanly. */
  ghost predicate CopyFeasible(t: Table, src: Option<Path>, target: Path) {
    && CanCreate(t, target)
    && Listable(t, src)
    && !(src.value <= target)
    && forall q | q in t && src.value < q :: (IsDir(t, q) ==> t[q].readable) && |target| + |q| - |src.value| <= MaxDepth
  }

  /** The disk after a clean copy($target, $ignore): the new target directory
      and, below it, every node below the source whose top-level name is not
      ignored. */
  ghost function Copied(t: Table, src: Path, target: Path, ignore: iset<Name>): Table {
    t[target := DirNode(true, true)] + Graft(t, src, target, ignore, Children(t, src))
  }

  /** Once copy() has made the target, _copy runs cleanly and yields Copied. */
  lemma CopyStarts(t: Table, src: Path, target: Path, ignore: iset<Name>)
    requires WellFormed(t) && CopyFeasible(t, Some(src), target)
    ensures var t1 := t[target := DirNode(true, true)];
            && CopyReady(t1, Some(src), target)
            && t1 + Graft(t1, src, target, ignore, Children(t1, src)) == Copied(t, src, target, ignore)
  {
    NothingBelow(t, target);
    GraftLocal(t[target := DirNode(true, true)], t, src, target, ignore);
  }

  /** A clean copy reproduces a node below the source, with its kind and
      content, exactly when its top-level name is not ignored and it can be
      read: names deeper down are never looked at, and an unreadable file is
      silently missing. */
  lemma CopyReproducesExactlyUnignored(t: Table, src: Path, target: Path, ignore: iset<Name>, q: Path)
    requires WellFormed(t) && CopyFeasible(t, Some(src), target) && q in t && src < q
    ensures Rebase(q, src, target) in Copied(t, src, target, ignore) <==> q[|src|] !in ignore && t[q].readable
    ensures q[|src|] !in ignore && t[q].readable ==> Copied(t, src, target, ignore)[Rebase(q, src, target)] == Fresh(t[q])
  {
    var k := Rebase(q, src, target);
    assert k[|target|..] == q[|src|..];
    assert k[|target|] == q[|src|];
    GraftAt(t, src, target, ignore, Children(t, src), k);
    ChildOfBelow(t, src, q);
    assert q[..|src| + 1] == src + [q[|src|]];
    NothingBelow(t, target);
    assert k !in t;
  }

  /** A clean copy keeps every existing node as it was and adds nodes only
      at or below the target, each copied from a readable node below the
      source. */
  lemma CopyKeepsTheRest(t: Table, src: Path, target: Path, ignore: iset<Name>, k: Path)
    requires WellFormed(t) && CopyFeasible(t, Some(src), target)
    ensures k in t ==> k in Copied(t, src, target, ignore) && Copied(t, src, target, ignore)[k] == t[k]
    ensures k in Copied(t, src, target, ignore) && k !in t ==>
              k == target || (target < k && src + k[|target|..] in t && k[|target|] !in ignore
                              && t[src + k[|target|..]].readable)
  {
    NothingBelow(t, target);
    GraftAt(t, src, target, ignore, Children(t, src), k);
  }

  /** The disk after a clean move($target): the copy with the source subtree
      removed. */
  ghost function MovedTree(t: Table, src: Path, target: Path): Table {
    RemoveTree(Copied(t, src, target, iset{}), src)
  }

  /** A clean move carries every readable node below the source to the same
      place below the target, leaves nothing at or below the source and keeps
      every node outside it. An unreadable file below the source is lost: its
      copy() fails unnoticed and remove() deletes the original. */
  lemma MoveRelocatesSubtree(t: Table, src: Path, target: Path, q: Path)
    requires WellFormed(t) && CopyFeasible(t, Some(src), target) && q in t
    ensures src <= q ==> q !in MovedTree(t, src, target)
    ensures src < q ==> (Rebase(q, src, target) in MovedTree(t, src, target) <==> t[q].readable)
    ensures src < q && t[q].readable ==> MovedTree(t, src, target)[Rebase(q, src, target)] == Fresh(t[q])
    ensures !(src <= q) ==> q in MovedTree(t, src, target) && MovedTree(t, src, target)[q] == t[q]
  {
    CopyKeepsTheRest(t, src, target, iset{}, q);
    if src < q {
      CopyReproducesExactlyUnignored(t, src, target, iset{}, q);
      var k := Rebase(q, src, target);
      if src <= k {
        PrefixesComparable(src, target, k);
        if target <= src {
          AncestorOrSelfExists(t, src, target);
        }
      }
    }
  }

  /** Every ancestor of a node of a well-formed table is in the table. */
  lemma AncestorOrSelfExists(t: Table, q: Path, r: Path)
    requires WellFormed(t) && q in t && r <= q
    ensures r in t
  {
    if r < q {
      AncestorIsDir(t, q, r);
    } else {
      assert r == q;
    }
  }

  /** rename() onto the directory's own name with overwrite true: the
      directory is its own target, so remove() deletes it and the rename()
      that follows has no source left. */
  lemma SelfRenameDeletesItself(t: Table, p: Path)
    requires WellFormed(t) && IsDir(t, p) && p != []
    ensures Child(DirOf(Some(p)), p[|p| - 1]) == p
    ensures p !in RemoveTree(t, p)
    ensures FsTable.Rename(RemoveTree(t, p), Some(p), p).None?
  {
    assert p[|p| - 1] != "";
    assert Parent(p) + [p[|p| - 1]] == p;
  }

  /** rename() onto a directory that has just been removed puts the renamed
      subtree there: nothing of the old target subtree survives. */
  lemma RenameReplacesTarget(t: Table, a: Path, np: Path, k: Path)
    requires WellFormed(t) && np != [] && np in t
    requires Rename(RemoveTree(t, np), Some(a), np).Some? && a != np
    ensures np <= k ==>
              (k in Rename(RemoveTree(t, np), Some(a), np).value <==> a + k[|np|..] in t)
    ensures np <= k && k in Rename(RemoveTree(t, np), Some(a), np).value ==>
              Rename(RemoveTree(t, np), Some(a), np).value[k] == t[a + k[|np|..]]
  {
    var u := RemoveTree(t, np);
    RelocateAt(u, a, np, k);
    if np <= k && a + k[|np|..] in t {
      assert !(np <= a + k[|np|..]);
    }
  }

  class Directory {
    const disk: Disk
    var path: Option<Path>

    constructor Bind(disk: Disk, p: Path)
      ensures this.disk == disk && path == Some(p)
    {
      this.disk := disk;
      path := Some(p);
    }

    /** new Directory($path): binds to an existing path, of whatever kind;
        otherwise create() makes the directory or raises IOException. */
    static method New(disk: Disk, path: Arg<Path>) returns (r: Result<Directory>)
      requires WellFormed(disk.nodes)
      modifies disk
      ensures WellFormed(disk.nodes)
      ensures path.WrongType? ==> r == Failure(InvalidArgument) && disk.nodes == old(disk.nodes)
      ensures path.Given? && path.value in old(disk.nodes) ==> r.Success? && disk.nodes == old(disk.nodes)
      ensures path.Given? && path.value !in old(disk.nodes) ==>
                if CanCreate(old(disk.nodes), path.value)
                then r.Success? && disk.nodes == old(disk.nodes)[path.value := DirNode(true, true)]
                else r == Failure(IO) && disk.nodes == old(disk.nodes)
      ensures r.Success? ==> fresh(r.value) && r.value.disk == disk && r.value.path == Some(path.value)
    {
      if path.WrongType? {
        return Failure(InvalidArgument);
      }
      var p := path.value;
      if p !in disk.nodes {
        var made := Mkdir(disk.nodes, Some(p));
        if made.None? {
          return Failure(IO);
        }
        disk.nodes := made.value;
      }
      var d := new Directory.Bind(disk, p);
      return Success(d);
    }

    /** getContent(): every entry of the directory, keyed by path. */
    method GetContent() returns (r: Result<map<Path, Listed>>)
      ensures r.Failure? <==> !Listable(disk.nodes, path)
      ensures r.Failure? ==> r.error == PhpRuntime
      ensures r.Success? ==> r.value == ContentOf(disk.nodes, path.value)
    {
      r := Collect(true, true);
    }

    /** getFiles(): the files of the directory, keyed by path. */
    method GetFiles() returns (r: Result<map<Path, Listed>>)
      ensures r.Failure? <==> !Listable(disk.nodes, path)
      ensures r.Failure? ==> r.error == PhpRuntime
      ensures r.Success? ==> r.value == FilesOf(disk.nodes, path.value)
    {
      r := Collect(true, false);
    }

    /** getDirectories(): the subdirectories of the directory, keyed by path. */
    method GetDirectories() returns (r: Result<map<Path, Listed>>)
      ensures r.Failure? <==> !Listable(disk.nodes, path)
      ensures r.Failure? ==> r.error == PhpRuntime
      ensures r.Success? ==> r.value == DirectoriesOf(disk.nodes, path.value)
    {
      r := Collect(false, true);
    }

    /** The foreach over iterator_to_array(new FilesystemIterator($path)) that
        the three listings share; the iterator order is unspecified. */
    method Collect(files: bool, dirs: bool) returns (r: Result<map<Path, Listed>>)
      ensures r.Failure? <==> !Listable(disk.nodes, path)
      ensures r.Failure? ==> r.error == PhpRuntime
      ensures r.Success? ==> r.value == Select(disk.nodes, Children(disk.nodes, path.value), files, dirs)
    {
      if !Listable(disk.nodes, path) {
        return Failure(PhpRuntime);
      }
      var t := disk.nodes;
      var entries := Children(t, path.value);
      var todo := entries;
      var output: map<Path, Listed> := map[];
      while todo != {}
        invariant todo <= entries
        invariant output == Select(t, entries - todo, files, dirs)
        decreases todo
      {
        var c :| c in todo;
        if files && IsFile(t, c) {
          output := output[c := ListedFile];
        }
        if dirs && IsDir(t, c) {
          output := output[c := ListedDirectory];
        }
        todo := todo - {c};
        assert output == Select(t, entries - todo, files, dirs);
      }
      return Success(output);
    }

    /** remove(): deletes every node below the directory child first, then the
        directory itself, and unbinds the object. */
    method Remove() returns (r: Result<Directory>)
      requires WellFormed(disk.nodes)
      modifies this, disk
      ensures WellFormed(disk.nodes)
      ensures !SubtreeListable(old(disk.nodes), old(path)) ==>
                r == Failure(PhpRuntime) && disk.nodes == old(disk.nodes)
      ensures r.Success? <==> Removable(old(disk.nodes), old(path))
      ensures r.Success? ==> r.value == this && path == None
                             && disk.nodes == RemoveTree(old(disk.nodes), old(path).value)
      ensures r.Failure? ==> path == old(path) && PartlyRemoved(old(disk.nodes), disk.nodes, old(path))
      ensures r.Failure? && SubtreeListable(old(disk.nodes), old(path)) ==> r.error == IO
    {
      if !SubtreeListable(disk.nodes, path) {
        return Failure(PhpRuntime);
      }
      var root := path.value;
      ghost var t0 := disk.nodes;
      var rest := Below(disk.nodes, root);
      while rest != {}
        invariant path == Some(root)
        invariant RemovalProgress(t0, disk.nodes, root)
        invariant rest == Below(disk.nodes, root)
        decreases rest
      {
        ghost var leaf := DeepestHasNoChildren(disk.nodes, root, rest);
        var q :| q in rest && Children(disk.nodes, q) == {};
        RemoveStep(t0, disk.nodes, root, q);
        var next := if IsDir(disk.nodes, q) then Rmdir(disk.nodes, Some(q)) else Unlink(disk.nodes, Some(q));
        if next.None? {
          return Failure(IO);
        }
        disk.nodes := next.value;
        rest := rest - {q};
      }
      assert Children(disk.nodes, root) == {};
      var last := Rmdir(disk.nodes, Some(root));
      if last.None? {
        return Failure(IO);
      }
      EmptiedSubtree(t0, disk.nodes, root);
      disk.nodes := last.value;
      path := None;
      return Success(this);
    }

    /** rename($newName, $overwrite): renames the directory to a sibling path,
        first removing an existing directory there when $overwrite holds; the
        result is a new object bound to the new path, this one is left as it
        was. */
    method Rename(newName: Arg<Name>, overwrite: Arg<bool>) returns (r: Result<Directory>)
      requires WellFormed(disk.nodes)
      modifies disk
      ensures WellFormed(disk.nodes)
      ensures newName.WrongType? || overwrite.WrongType? ==>
                r == Failure(InvalidArgument) && disk.nodes == old(disk.nodes)
      ensures newName.Given? && overwrite.Given? ==>
                var np := Child(DirOf(path), newName.value);
                && (IsDir(old(disk.nodes), np) && !overwrite.value ==>
                      r == Failure(IO) && disk.nodes == old(disk.nodes))
                && (!IsDir(old(disk.nodes), np) ==>
                      && (r.Success? <==> FsTable.Rename(old(disk.nodes), path, np).Some?)
                      && (r.Success? ==> disk.nodes == FsTable.Rename(old(disk.nodes), path, np).value)
                      && (r.Failure? ==> r == Failure(IO) && disk.nodes == old(disk.nodes)))
                && (IsDir(old(disk.nodes), np) && overwrite.value && Removable(old(disk.nodes), Some(np)) ==>
                      && (r.Success? <==> FsTable.Rename(RemoveTree(old(disk.nodes), np), path, np).Some?)
                      && (r.Success? ==> disk.nodes == FsTable.Rename(RemoveTree(old(disk.nodes), np), path, np).value)
                      && (r.Failure? ==> r == Failure(IO) && disk.nodes == RemoveTree(old(disk.nodes), np)))
                && (IsDir(old(disk.nodes), np) && overwrite.value && !Removable(old(disk.nodes), Some(np)) ==>
                      r.Failure? && PartlyRemoved(old(disk.nodes), disk.nodes, Some(np)))
                && (r.Success? ==> fresh(r.value) && r.value.disk == disk && r.value.path == Some(np))
    {
      if newName.WrongType? || overwrite.WrongType? {
        return Failure(InvalidArgument);
      }
      var np := Child(DirOf(path), newName.value);
      if IsDir(disk.nodes, np) && !overwrite.value {
        return Failure(IO);
      }
      if IsDir(disk.nodes, np) {
        var d := new Directory.Bind(disk, np);
        var removed := d.Remove();
        if removed.Failure? {
          return Failure(removed.error);
        }
      }
      r := RenameOnto(np);
    }

    /** The rename() call of rename() and the new Directory($newPath) made
        for the result; IOException when rename() returns false. */
    method RenameOnto(np: Path) returns (r: Result<Directory>)
      requires WellFormed(disk.nodes)
      modifies disk
      ensures WellFormed(disk.nodes)
      ensures r.Success? <==> FsTable.Rename(old(disk.nodes), path, np).Some?
      ensures r.Success? ==> && disk.nodes == FsTable.Rename(old(disk.nodes), path, np).value
                             && fresh(r.value) && r.value.disk == disk && r.value.path == Some(np)
      ensures r.Failure? ==> r == Failure(IO) && disk.nodes == old(disk.nodes)
    {
      var renamed := FsTable.Rename(disk.nodes, path, np);
      if renamed.None? {
        return Failure(IO);
      }
      RenameWellFormed(disk.nodes, path, np);
      RenameMovesNode(disk.nodes, path, np);
      disk.nodes := renamed.value;
      r := New(disk, Given(np));
    }

    /** _copy($directory, $copyDir, $ignore): copies the entries of src into
        dst, files with copy() (a failure is ignored) and directories with
        mkdir() and a recursive _copy without the ignore list. */
    method CopyInto(src: Option<Path>, dst: Path, ignore: seq<Name>) returns (r: Result<()>)
      requires WellFormed(disk.nodes)
      modifies disk
      ensures WellFormed(disk.nodes)
      ensures SameOutside(old(disk.nodes), disk.nodes, dst)
      ensures !Listable(old(disk.nodes), src) ==> r == Failure(PhpRuntime) && disk.nodes == old(disk.nodes)
      ensures CopyReady(old(disk.nodes), src, dst) ==>
                r.Success? && disk.nodes == old(disk.nodes) + Graft(old(disk.nodes), src.value, dst, Ignored(ignore), Children(old(disk.nodes), src.value))
      decreases MaxDepth - |dst|, 3
    {
      if !Listable(disk.nodes, src) {
        return Failure(PhpRuntime);
      }
      r := CopyListing(src.value, dst, ignore);
    }

    /** The foreach of _copy over the listing of the directory s, which is
        taken once, before anything is copied. */
    method CopyListing(s: Path, dst: Path, ignore: seq<Name>) returns (r: Result<()>)
      requires WellFormed(disk.nodes) && Listable(disk.nodes, Some(s))
      modifies disk
      ensures WellFormed(disk.nodes)
      ensures SameOutside(old(disk.nodes), disk.nodes, dst)
      ensures CopyReady(old(disk.nodes), Some(s), dst) ==>
                r.Success? && disk.nodes == old(disk.nodes) + Graft(old(disk.nodes), s, dst, Ignored(ignore), Children(old(disk.nodes), s))
      decreases MaxDepth - |dst|, 2
    {
      ghost var t0 := disk.nodes;
      var listing := ContentOf(disk.nodes, s);
      var todo := listing.Keys;
      ghost var done: set<Path> := {};
      GraftOfNothing(t0, s, dst, Ignored(ignore));
      while todo != {}
        invariant todo <= listing.Keys && done == listing.Keys - todo
        invariant WellFormed(disk.nodes)
        invariant SameOutside(t0, disk.nodes, dst)
        invariant CopiedSoFar(t0, s, dst, Ignored(ignore), done, disk.nodes)
        decreases todo
      {
        var c :| c in todo;
        var entry := CopyEntry(s, c, listing[c], dst, ignore, t0, done);
        if entry.Failure? {
          return entry;
        }
        todo := todo - {c};
        done := done + {c};
      }
      ContentCoversChildren(t0, s);
      assert done == Children(t0, s);
      return Success(());
    }

    /** One pass of the foreach of _copy, for the listed entry c of kind
        kind: copy() for a file, the directory branch for a directory,
        nothing for an ignored name. */
    method CopyEntry(s: Path, c: Path, kind: Listed, dst: Path, ignore: seq<Name>, ghost t0: Table, ghost done: set<Path>)
      returns (r: Result<()>)
      requires WellFormed(disk.nodes) && WellFormed(t0)
      requires c in ContentOf(t0, s) && kind == ContentOf(t0, s)[c] && c !in done
      requires SameOutside(t0, disk.nodes, dst)
      requires CopiedSoFar(t0, s, dst, Ignored(ignore), done, disk.nodes)
      modifies disk
      ensures WellFormed(disk.nodes)
      ensures SameOutside(t0, disk.nodes, dst)
      ensures CopiedSoFar(t0, s, dst, Ignored(ignore), done + {c}, disk.nodes)
      ensures CopyReady(t0, Some(s), dst) ==> r.Success?
      decreases MaxDepth - |dst|, 1
    {
      var name := c[|s|];
      ListedKind(t0, s, c);
      ChildOfListing(t0, s, c);
      if InArray(name, ignore) {
        if CopyReady(t0, Some(s), dst) {
          CopySkipStep(t0, s, dst, Ignored(ignore), done, c);
        }
        return Success(());
      }
      if kind == ListedDirectory {
        r := CopySubdirectory(s, c, dst, ignore, t0, done);
      } else {
        r := CopyFileEntry(s, c, dst, ignore, t0, done);
      }
    }

    /** The file branch of _copy: copy() of the file into the target, whose
        failure the loop ignores. */
    method CopyFileEntry(s: Path, c: Path, dst: Path, ignore: seq<Name>, ghost t0: Table, ghost done: set<Path>)
      returns (r: Result<()>)
      requires WellFormed(disk.nodes) && WellFormed(t0)
      requires c in Children(t0, s) && IsFile(t0, c) && c !in done && c[|s|] !in Ignored(ignore)
      requires SameOutside(t0, disk.nodes, dst)
      requires CopiedSoFar(t0, s, dst, Ignored(ignore), done, disk.nodes)
      modifies disk
      ensures WellFormed(disk.nodes)
      ensures SameOutside(t0, disk.nodes, dst)
      ensures CopiedSoFar(t0, s, dst, Ignored(ignore), done + {c}, disk.nodes)
      ensures r.Success?
      ensures CopyFile(old(disk.nodes), Some(c), Child(dst, c[|s|])).None? ==> disk.nodes == old(disk.nodes)
      ensures CopyFile(old(disk.nodes), Some(c), Child(dst, c[|s|])).Some? ==>
                disk.nodes == CopyFile(old(disk.nodes), Some(c), Child(dst, c[|s|])).value
    {
      var name := c[|s|];
      ghost var before := disk.nodes;
      var copied := CopyFile(disk.nodes, Some(c), Child(dst, name));
      if copied.Some? {
        disk.nodes := copied.value;
        ChangedAt(before, disk.nodes, dst + [name], dst);
        SameOutsideTrans(t0, before, disk.nodes, dst, dst);
      }
      if CopyReady(t0, Some(s), dst) {
        if t0[c].readable {
          CopyFileStep(t0, s, dst, Ignored(ignore), done, c);
        } else {
          CopyUnreadableStep(t0, s, dst, Ignored(ignore), done, c);
        }
      }
      return Success(());
    }

    /** The directory branch of _copy: mkdir() of the copy (create(), which
        raises IOException on failure), then _copy into it with no ignore
        list. */
    method CopySubdirectory(s: Path, c: Path, dst: Path, ignore: seq<Name>, ghost t0: Table, ghost done: set<Path>)
      returns (r: Result<()>)
      requires WellFormed(disk.nodes) && WellFormed(t0)
      requires c in Children(t0, s) && IsDir(t0, c) && c !in done && c[|s|] !in Ignored(ignore)
      requires SameOutside(t0, disk.nodes, dst)
      requires CopiedSoFar(t0, s, dst, Ignored(ignore), done, disk.nodes)
      modifies disk
      ensures WellFormed(disk.nodes)
      ensures SameOutside(t0, disk.nodes, dst)
      ensures CopiedSoFar(t0, s, dst, Ignored(ignore), done + {c}, disk.nodes)
      ensures CopyReady(t0, Some(s), dst) ==> r.Success?
      decreases MaxDepth - |dst|, 0
    {
      var name := c[|s|];
      ghost var before := disk.nodes;
      ChildOfListing(t0, s, c);
      var made := Mkdir(disk.nodes, Some(Child(dst, name)));
      if CopyReady(t0, Some(s), dst) {
        CopyDirectoryReady(t0, s, dst, Ignored(ignore), done, c);
      }
      if made.None? {
        return Failure(IO);
      }
      disk.nodes := made.value;
      ghost var t1 := disk.nodes;
      ChangedAt(before, t1, dst + [name], dst);
      NothingIgnored();
      r := CopyInto(Some(c), Child(dst, name), []);
      SameOutsideTrans(before, t1, disk.nodes, dst, dst + [name]);
      SameOutsideTrans(t0, before, disk.nodes, dst, dst);
      if CopyReady(t0, Some(s), dst) {
        CopyDirectoryDone(t0, s, dst, Ignored(ignore), done, c);
      }
    }

    /** copy($target, $ignore, $returnNew, $overwrite): makes the target
        directory with create() and copies the content into it. */
    method Copy(target: Arg<Path>, ignore: seq<Name>, returnNew: Arg<bool>, overwrite: Arg<bool>)
      returns (r: Result<Directory>)
      requires WellFormed(disk.nodes)
      modifies disk
      ensures WellFormed(disk.nodes)
      ensures target.WrongType? || returnNew.WrongType? || overwrite.WrongType? ==>
                r == Failure(InvalidArgument) && disk.nodes == old(disk.nodes)
      ensures target.Given? && returnNew.Given? && overwrite.Given? ==>
                && (!CanCreate(old(disk.nodes), target.value) ==> r == Failure(IO) && disk.nodes == old(disk.nodes))
                && (CanCreate(old(disk.nodes), target.value) && !Listable(old(disk.nodes), path) && path != Some(target.value) ==>
                      r == Failure(PhpRuntime) && disk.nodes == old(disk.nodes)[target.value := DirNode(true, true)])
                && (CopyFeasible(old(disk.nodes), path, target.value) ==>
                      r.Success? && disk.nodes == Copied(old(disk.nodes), path.value, target.value, Ignored(ignore)))
                && (CanCreate(old(disk.nodes), target.value) ==>
                      SameOutside(old(disk.nodes)[target.value := DirNode(true, true)], disk.nodes, target.value))
      ensures r.Success? ==> (returnNew.value ==> fresh(r.value) && r.value.disk == disk && r.value.path == Some(target.value))
                             && (!returnNew.value ==> r.value == this)
    {
      if target.WrongType? || returnNew.WrongType? || overwrite.WrongType? {
        return Failure(InvalidArgument);
      }
      var p := target.value;
      if p in disk.nodes && !overwrite.value {
        return Failure(IO);
      }
      var made := Mkdir(disk.nodes, Some(p));
      if made.None? {
        return Failure(IO);
      }
      ghost var t := disk.nodes;
      disk.nodes := made.value;
      if CopyFeasible(t, path, p) {
        CopyStarts(t, path.value, p, Ignored(ignore));
      }
      var copied := CopyInto(path, p, ignore);
      if copied.Failure? {
        return Failure(copied.error);
      }
      if returnNew.value {
        r := New(disk, target);
      } else {
        r := Success(this);
      }
    }

    /** move($target, $overwrite): copy() to the target, then remove(), then
        a new object bound to the target. */
    method Move(target: Arg<Path>, overwrite: Arg<bool>) returns (r: Result<Directory>)
      requires WellFormed(disk.nodes)
      modifies this, disk
      ensures WellFormed(disk.nodes)
      ensures target.WrongType? || overwrite.WrongType? ==>
                r == Failure(InvalidArgument) && disk.nodes == old(disk.nodes) && path == old(path)
      ensures target.Given? && overwrite.Given? && target.value in old(disk.nodes) ==>
                r == Failure(IO) && disk.nodes == old(disk.nodes) && path == old(path)
      ensures target.Given? && overwrite.Given? && CopyFeasible(old(disk.nodes), old(path), target.value)
              && Removable(Copied(old(disk.nodes), old(path).value, target.value, iset{}), old(path)) ==>
                r.Success? && disk.nodes == MovedTree(old(disk.nodes), old(path).value, target.value)
      ensures target.Given? && overwrite.Given? && CanCreate(old(disk.nodes), target.value)
              && r.Failure? && path == old(path) ==>
                KeptOutside(old(disk.nodes), disk.nodes, target.value, old(path))
      ensures r.Success? ==> path == None && target.value in disk.nodes
                             && fresh(r.value) && r.value.disk == disk && r.value.path == Some(target.value)
    {
      if target.WrongType? || overwrite.WrongType? {
        return Failure(InvalidArgument);
      }
      if target.value in disk.nodes && !overwrite.value {
        return Failure(IO);
      }
      NothingIgnored();
      ghost var t0 := disk.nodes;
      var copied := Copy(target, [], Given(true), overwrite);
      if copied.Failure? {
        if CanCreate(t0, target.value) {
          assert SameOutside(t0[target.value := DirNode(true, true)], disk.nodes, target.value);
          KeptThroughMove(t0, disk.nodes, disk.nodes, target.value, path);
        }
        return Failure(copied.error);
      }
      ghost var copiedTable := disk.nodes;
      var removed := Remove();
      if removed.Failure? {
        if CanCreate(t0, target.value) {
          assert PartlyRemoved(copiedTable, disk.nodes, old(path));
          KeptThroughMove(t0, copiedTable, disk.nodes, target.value, old(path));
        }
        return Failure(removed.error);
      }
      r := New(disk, target);
    }
  
    /** append($item, $move, $returnNew, $overwrite): moves or copies a
        File or Directory into this directory under its own base name. A
        Directory is copied with `true` in place of copy()'s array of ignored
        names, which PHP refuses with a TypeError. */
    method Append(item: Entity, move: Arg<bool>, returnNew: Arg<bool>, overwrite: Arg<bool>)
      returns (r: Result<Entity>)
      requires WellFormed(disk.nodes)
      requires item.FileEntity? ==> item.file.disk == disk
      requires item.DirectoryEntity? ==> item.dir.disk == disk
      modifies disk, Objects(item)
      ensures WellFormed(disk.nodes)
      ensures item.OtherObject? || move.WrongType? || returnNew.WrongType? || overwrite.WrongType? ==>
                r == Failure(InvalidArgument) && disk.nodes == old(disk.nodes)
      ensures r.Success? ==> r.value == if returnNew.value then item else DirectoryEntity(this)
      ensures item.FileEntity? && move.Given? && returnNew.Given? && overwrite.Given? ==>
                var src := old(item.file.path);
                var target := Within(old(path), Basename(src));
                && (move.value ==>
                      && (IsFile(old(disk.nodes), target) && !overwrite.value ==> r == Failure(IO) && disk.nodes == old(disk.nodes))
                      && (!(IsFile(old(disk.nodes), target) && !overwrite.value) ==>
                            var copied := CopyFile(old(disk.nodes), src, target);
                            && (r.Success? <==> copied.Some? && Unlink(copied.value, src).Some?)
                            && (copied.None? ==> r == Failure(IO) && disk.nodes == old(disk.nodes))
                            && (copied.Some? && Unlink(copied.value, src).None? ==>
                                  r == Failure(IO) && disk.nodes == copied.value))
                      && (r.Success? ==> src.Some? && CopyFile(old(disk.nodes), src, target).Some?
                                         && disk.nodes == CopyFile(old(disk.nodes), src, target).value - {src.value}
                                         && item.file.path == None))
                && (!move.value ==>
                      && (r.Success? <==> !(IsFile(old(disk.nodes), target) && !overwrite.value)
                                          && CopyFile(old(disk.nodes), src, target).Some?)
                      && (r.Success? ==> disk.nodes == CopyFile(old(disk.nodes), src, target).value)
                      && (r.Failure? ==> r == Failure(IO) && disk.nodes == old(disk.nodes)))
      ensures item.DirectoryEntity? && move.Given? && returnNew.Given? && overwrite.Given? ==>
                var src := old(item.dir.path);
                var target := Within(old(path), Basename(src));
                && (move.value ==>
                      && (target in old(disk.nodes) ==> r == Failure(IO) && disk.nodes == old(disk.nodes))
                      && (CopyFeasible(old(disk.nodes), src, target) && Removable(Copied(old(disk.nodes), src.value, target, iset{}), src) ==>
                            r.Success? && disk.nodes == MovedTree(old(disk.nodes), src.value, target))
                      && (CanCreate(old(disk.nodes), target) && r.Failure? && item.dir.path == src ==>
                            KeptOutside(old(disk.nodes), disk.nodes, target, src))
                      && (r.Success? ==> item.dir.path == None))
                && (!move.value ==> r == Failure(PhpRuntime) && disk.nodes == old(disk.nodes))
    {
      if item.OtherObject? || move.WrongType? || returnNew.WrongType? || overwrite.WrongType? {
        return Failure(InvalidArgument);
      }
      var result := if returnNew.value then item else DirectoryEntity(this);
      if item.FileEntity? {
        var target := Within(path, Basename(item.file.path));
        if move.value {
          var moved := item.file.Move(Given(target), overwrite);
          if moved.Failure? {
            return Failure(moved.error);
          }
        } else {
          var copied := item.file.Copy(Given(target), Given(true), overwrite);
          if copied.Failure? {
            return Failure(copied.error);
          }
        }
      } else {
        var target := Within(path, Basename(item.dir.path));
        if move.value {
          var moved := item.dir.Move(Given(target), overwrite);
          if moved.Failure? {
            return Failure(moved.error);
          }
        } else {
          return Failure(PhpRuntime);
        }
      }
      r := Success(result);
    }
  }
}

=== FILE: file.dfy ===
/** Kappa\FileSystem\File: an object bound to one regular file of the disk,
    whose operations rewrite, rename, copy, move and delete that file. */
module Files {
  import opened Php
  import opened FsTable

  /** md5_file(): a digest of the content. Distinct contents have distinct
      digests (the datatype constructor is injective). */
  datatype Digest = Md5(of: string)

  /** getHash(): the digest of what file_get_contents reads, `false` when
      nothing can be read. */
  function HashOf(t: Table, p: Option<Path>): (h: Option<Digest>)
    ensures h.Some? <==> ReadFile(t, p).Some?
    ensures h.Some? ==> h.value.of == ReadFile(t, p).value
  {
    match ReadFile(t, p)
    case None => None
    case Some(c) => Some(Md5(c))
  }

  /** What append() hands to overwrite(): when the current content is truthy,
      that content, then PHP_EOL or a space, then the new content; otherwise
      (no readable content, "" or "0") the new content alone. */
  function Appended(actual: Option<string>, content: Value, newLine: bool): (v: Value)
    requires Writable(content)
    ensures Writable(v)
    ensures actual.Some? && TruthyString(actual.value) ==>
              v.Str? && Text(v) == actual.value + (if newLine then EOL else " ") + Text(content)
    ensures !(actual.Some? && TruthyString(actual.value)) ==> v == content
  {
    if actual.Some? && TruthyString(actual.value) then
      Str(actual.value + (if newLine then EOL else " ") + Text(content))
    else
      content
  }

  /** The old content, a separator and the new content are written exactly
      when the old content is truthy: "" and "0" are replaced, not extended. */
  lemma AppendedExtendsOnlyTruthy(actual: string, content: Value, newLine: bool)
    requires Writable(content)
    ensures Text(Appended(Some(actual), content, newLine)) == actual + (if newLine then EOL else " ") + Text(content)
            <==> TruthyString(actual)
  {
    if !TruthyString(actual) {
      assert |Text(Appended(Some(actual), content, newLine))| < |actual + (if newLine then EOL else " ") + Text(content)|;
    }
  }

  /** A file holding "0" is treated as empty: appending replaces it. */
  lemma AppendToZeroDropsIt(content: Value, newLine: bool)
    requires Writable(content)
    ensures Text(Appended(Some("0"), content, newLine)) == Text(content)
    ensures content != Str("0") ==> Text(Appended(Some("0"), content, newLine)) != "0" + EOL + Text(content)
  {
    assert |"0" + EOL + Text(content)| == |Text(content)| + 2;
  }

  class File {
    const disk: Disk
    var path: Option<Path>

    constructor Bind(disk: Disk, p: Path)
      ensures this.disk == disk && path == Some(p)
    {
      this.disk := disk;
      path := Some(p);
    }

    /** new File($path): binds to a writable regular file; otherwise tries
        fopen($path, 'w+') (create()) and binds if the path then exists. */
    static method New(disk: Disk, path: Arg<Path>) returns (r: Result<File>)
      requires WellFormed(disk.nodes)
      modifies disk
      ensures WellFormed(disk.nodes)
      ensures path.WrongType? ==> r == Failure(InvalidArgument) && disk.nodes == old(disk.nodes)
      ensures path.Given? && path.value in old(disk.nodes) ==>
                r.Success? && disk.nodes == old(disk.nodes)
      ensures path.Given? && path.value !in old(disk.nodes) ==>
                if CanCreate(old(disk.nodes), path.value)
                then r.Success? && disk.nodes == old(disk.nodes)[path.value := FileNode("", true, true)]
                else r == Failure(IO) && disk.nodes == old(disk.nodes)
      ensures r.Success? ==> fresh(r.value) && r.value.disk == disk && r.value.path == Some(path.value)
    {
      if path.WrongType? {
        return Failure(InvalidArgument);
      }
      var p := path.value;
      if IsFile(disk.nodes, p) && disk.nodes[p].writable {
        var f := new File.Bind(disk, p);
        return Success(f);
      }
      var created := Open(disk.nodes, Some(p), true);
      if created.Some? {
        disk.nodes := created.value;
      }
      if p in disk.nodes {
        var f := new File.Bind(disk, p);
        return Success(f);
      }
      return Failure(IO);
    }

    /** overwrite($content): fopen($path, 'w') and fwrite. A truthy content
        that is neither a string nor a number is refused. */
    method Overwrite(content: Value) returns (r: Result<File>)
      requires WellFormed(disk.nodes)
      modifies disk
      ensures WellFormed(disk.nodes)
      ensures !Writable(content) ==> r == Failure(InvalidArgument) && disk.nodes == old(disk.nodes)
      ensures Writable(content) ==> (r.Success? <==> Open(old(disk.nodes), path, false).Some?)
      ensures r.Success? ==> r == Success(this)
                             && disk.nodes == PutContents(old(disk.nodes), path, Text(content)).value
      ensures r.Success? ==> IsFile(disk.nodes, path.value) && disk.nodes[path.value].content == Text(content)
                             && disk.nodes[path.value].readable == old(IsReadable(disk.nodes, path.value) || path.value !in disk.nodes)
                             && disk.nodes.Keys == old(disk.nodes.Keys) + {path.value}
                             && forall q | q in old(disk.nodes) && q != path.value :: disk.nodes[q] == old(disk.nodes[q])
      ensures Writable(content) && r.Failure? ==> r.error == IO && disk.nodes == old(disk.nodes)
    {
      if !Writable(content) {
        return Failure(InvalidArgument);
      }
      var written := PutContents(disk.nodes, path, Text(content));
      if written.None? {
        return Failure(IO);
      }
      disk.nodes := written.value;
      return Success(this);
    }

    /** clean(): overwrite(null), leaving the file empty. */
    method Clean() returns (r: Result<File>)
      requires WellFormed(disk.nodes)
      modifies disk
      ensures WellFormed(disk.nodes)
      ensures r.Success? <==> Open(old(disk.nodes), path, false).Some?
      ensures r.Success? ==> r == Success(this) && IsFile(disk.nodes, path.value)
                             && disk.nodes[path.value].content == ""
                             && disk.nodes == PutContents(old(disk.nodes), path, "").value
      ensures r.Failure? ==> r.error == IO && disk.nodes == old(disk.nodes)
    {
      r := Overwrite(Null);
    }

    /** read(): file_get_contents($path). */
    method Read() returns (r: Option<string>)
      ensures r.Some? <==> path.Some? && path.value in disk.nodes && disk.nodes[path.value].readable
      ensures r.Some? && IsFile(disk.nodes, path.value) ==> r.value == disk.nodes[path.value].content
      ensures r.Some? && IsDir(disk.nodes, path.value) ==> r.value == ""
    {
      r := ReadFile(disk.nodes, path);
    }

    /** append($content, $newLine): reads the file and overwrites it with the
        composition of Appended. */
    method Append(content: Value, newLine: Arg<bool>) returns (r: Result<File>)
      requires WellFormed(disk.nodes)
      modifies disk
      ensures WellFormed(disk.nodes)
      ensures !Writable(content) || newLine.WrongType? ==>
                r == Failure(InvalidArgument) && disk.nodes == old(disk.nodes)
      ensures Writable(content) && newLine.Given? ==>
                (r.Success? <==> Open(old(disk.nodes), path, false).Some?)
      ensures Writable(content) && newLine.Given? && r.Failure? ==> r == Failure(IO)
      ensures r.Success? ==>
                r == Success(this)
                && disk.nodes == PutContents(old(disk.nodes), path,
                                             Text(Appended(ReadFile(old(disk.nodes), path), content, newLine.value))).value
      ensures r.Success? && old(ReadFile(disk.nodes, path)) == Some("") ==>
                disk.nodes[path.value].content == Text(content)
      ensures r.Failure? ==> disk.nodes == old(disk.nodes)
    {
      if !Writable(content) || newLine.WrongType? {
        return Failure(InvalidArgument);
      }
      var actual := Read();
      var composed := Appended(actual, content, newLine.value);
      var written := Overwrite(composed);
      if written.Failure? {
        return Failure(IO);
      }
      return Success(this);
    }

    /** rename($newName, $overwrite): moves the file to a sibling path; an
        existing node there is replaced only when $overwrite is true. */
    method Rename(newName: Arg<Name>, overwrite: Arg<bool>) returns (r: Result<File>)
      requires WellFormed(disk.nodes)
      modifies this, disk
      ensures WellFormed(disk.nodes)
      ensures newName.WrongType? || overwrite.WrongType? ==>
                r == Failure(InvalidArgument) && disk.nodes == old(disk.nodes) && path == old(path)
      ensures newName.Given? && overwrite.Given? ==>
                var np := Child(DirOf(old(path)), newName.value);
                && (np in old(disk.nodes) && !overwrite.value ==> r == Failure(IO))
                && (r.Failure? ==> r == Failure(IO))
                && (r.Success? <==> !(np in old(disk.nodes) && !overwrite.value)
                                    && FsTable.Rename(old(disk.nodes), old(path), np).Some?)
                && (r.Success? ==> r == Success(this) && path == Some(np)
                                   && disk.nodes == FsTable.Rename(old(disk.nodes), old(path), np).value)
      ensures r.Success? && old(path.Some? && IsFile(disk.nodes, path.value)) ==>
                IsFile(disk.nodes, path.value) && disk.nodes[path.value] == old(disk.nodes[path.value])
                && (path != old(path) ==> old(path.value) !in disk.nodes)
      ensures r.Failure? ==> disk.nodes == old(disk.nodes) && path == old(path)
    {
      if newName.WrongType? || overwrite.WrongType? {
        return Failure(InvalidArgument);
      }
      var np := Child(DirOf(path), newName.value);
      if np in disk.nodes && !overwrite.value {
        return Failure(IO);
      }
      var renamed := FsTable.Rename(disk.nodes, path, np);
      if renamed.None? {
        return Failure(IO);
      }
      RenameWellFormed(disk.nodes, path, np);
      if path.value != np {
        RelocateWellFormed(disk.nodes, path.value, np);
        assert Rebase(path.value, path.value, np) == np;
      }
      disk.nodes := renamed.value;
      path := Some(np);
      return Success(this);
    }

    /** compare($file): equal digests, that is equal contents when both are
        readable; two unreadable paths also compare equal, and a readable
        directory equals an empty file. */
    function Compare(other: File): (r: bool)
      reads this, disk, other, other.disk
      ensures r <==> ReadFile(disk.nodes, path) == ReadFile(other.disk.nodes, other.path)
    {
      HashOf(disk.nodes, path) == HashOf(other.disk.nodes, other.path)
    }

    /** copy($target, $returnNew, $overwrite): copy() to the target path; an
        existing regular file there is replaced only when $overwrite is true. */
    method Copy(target: Arg<Path>, returnNew: Arg<bool>, overwrite: Arg<bool>) returns (r: Result<File>)
      requires WellFormed(disk.nodes)
      modifies disk
      ensures WellFormed(disk.nodes)
      ensures target.WrongType? || returnNew.WrongType? || overwrite.WrongType? ==>
                r == Failure(InvalidArgument) && disk.nodes == old(disk.nodes)
      ensures target.Given? && returnNew.Given? && overwrite.Given? ==>
                && (IsFile(old(disk.nodes), target.value) && !overwrite.value ==> r == Failure(IO))
                && (r.Success? <==> !(IsFile(old(disk.nodes), target.value) && !overwrite.value)
                                    && CopyFile(old(disk.nodes), path, target.value).Some?)
                && (r.Failure? ==> r == Failure(IO))
      ensures r.Success? ==>
                && disk.nodes == CopyFile(old(disk.nodes), path, target.value).value
                && IsFile(disk.nodes, target.value)
                && disk.nodes[target.value].content == old(disk.nodes[path.value].content)
                && disk.nodes[path.value] == old(disk.nodes[path.value])
                && (returnNew.value ==> fresh(r.value) && r.value.disk == disk && r.value.path == Some(target.value))
                && (!returnNew.value ==> r.value == this)
      ensures r.Failure? ==> disk.nodes == old(disk.nodes)
    {
      if target.WrongType? || returnNew.WrongType? || overwrite.WrongType? {
        return Failure(InvalidArgument);
      }
      if IsFile(disk.nodes, target.value) && !overwrite.value {
        return Failure(IO);
      }
      var copied := CopyFile(disk.nodes, path, target.value);
      if copied.None? {
        return Failure(IO);
      }
      disk.nodes := copied.value;
      if returnNew.value {
        r := New(disk, target);
      } else {
        r := Success(this);
      }
    }

    /** remove(): unlink($path), then $path becomes null. */
    method Remove() returns (r: Result<bool>)
      requires WellFormed(disk.nodes)
      modifies this, disk
      ensures WellFormed(disk.nodes)
      ensures r.Success? <==> Unlink(old(disk.nodes), old(path)).Some?
      ensures r.Success? ==> r == Success(true) && path == None
                             && disk.nodes == old(disk.nodes) - {old(path).value}
      ensures r.Failure? ==> r.error == IO && disk.nodes == old(disk.nodes) && path == old(path)
    {
      var unlinked := Unlink(disk.nodes, path);
      if unlinked.None? {
        return Failure(IO);
      }
      disk.nodes := unlinked.value;
      path := None;
      return Success(true);
    }

    /** move($target, $overwrite): copy() to the target, then remove(). */
    method Move(target: Arg<Path>, overwrite: Arg<bool>) returns (r: Result<File>)
      requires WellFormed(disk.nodes)
      modifies this, disk
      ensures WellFormed(disk.nodes)
      ensures target.WrongType? || overwrite.WrongType? ==>
                r == Failure(InvalidArgument) && disk.nodes == old(disk.nodes) && path == old(path)
      ensures target.Given? && overwrite.Given? && IsFile(old(disk.nodes), target.value) && !overwrite.value ==>
                r == Failure(IO) && disk.nodes == old(disk.nodes) && path == old(path)
      ensures target.Given? && overwrite.Given? && !(IsFile(old(disk.nodes), target.value) && !overwrite.value) ==>
                var copied := CopyFile(old(disk.nodes), old(path), target.value);
                && (r.Success? <==> copied.Some? && Unlink(copied.value, old(path)).Some?)
                && (copied.None? ==> r == Failure(IO) && disk.nodes == old(disk.nodes))
                && (copied.Some? && Unlink(copied.value, old(path)).None? ==>
                      r == Failure(IO) && disk.nodes == copied.value)
      ensures r.Success? ==>
                && old(path).Some? && path == None
                && CopyFile(old(disk.nodes), old(path), target.value).Some?
                && disk.nodes == CopyFile(old(disk.nodes), old(path), target.value).value - {old(path).value}
                && IsFile(disk.nodes, target.value)
                && disk.nodes[target.value].content == old(disk.nodes[path.value].content)
                && old(path).value !in disk.nodes
                && fresh(r.value) && r.value.disk == disk && r.value.path == Some(target.value)
      ensures r.Failure? ==> path == old(path)
    {
      if target.WrongType? || overwrite.WrongType? {
        return Failure(InvalidArgument);
      }
      if IsFile(disk.nodes, target.value) && !overwrite.value {
        return Failure(IO);
      }
      var copied := Copy(target, Given(true), overwrite);
      if copied.Failure? {
        return copied;
      }
      var removed := Remove();
      if removed.Failure? {
        return Failure(IO);
      }
      return copied;
    }
  }
}

=== FILE: filestorage.dfy ===
/** Kappa\FileSystem\FileStorage: the base class of File and Directory in the
    other revision of the library. Its path starts as null, is set through
    setPath(), and getInfo() and rename() refuse an object whose node has not
    been created yet. */
module FileStorageBase {
  import opened Php
  import opened FsTable
  import opened FileSystemBase
  import Directories

  class FileStorage {
    const disk: Disk
    const kind: Kind
    var path: Option<Path>

    /** An object before setPath(): $path is null. */
    constructor Init(disk: Disk, kind: Kind)
      ensures this.disk == disk && this.kind == kind && path == None
    {
      this.disk := disk;
      this.kind := kind;
      path := None;
    }

    /** setPath($path): stores realpath($path), which is false for a path
        that names no node. */
    method SetPath(p: Path)
      modifies this
      ensures path == RealPath(disk.nodes, p)
      ensures path.Some? <==> p in disk.nodes
      ensures path.Some? ==> path.value == p
    {
      path := RealPath(disk.nodes, p);
    }

    /** getPath(). */
    function GetPath(): (r: Option<Path>)
      reads this
      ensures r == path
    {
      path
    }

    /** isCreated(): readable, writable and of the object's kind; unlike
        isUsable() it returns false, not null, for an object of neither kind. */
    function IsCreated(): (r: bool)
      reads this, disk
      ensures r ==> path.Some? && path.value in disk.nodes
                    && disk.nodes[path.value].readable && disk.nodes[path.value].writable
      ensures r ==> (kind == FileKind <==> disk.nodes[path.value].FileNode?)
                    && (kind == DirectoryKind <==> disk.nodes[path.value].DirNode?)
      ensures (&& path.Some? && path.value in disk.nodes
               && disk.nodes[path.value].readable && disk.nodes[path.value].writable
               && ((kind == FileKind && disk.nodes[path.value].FileNode?)
                   || (kind == DirectoryKind && disk.nodes[path.value].DirNode?))) ==> r
    {
      Usable(disk.nodes, kind, GetPath())
    }

    /** getInfo(): the path wrapped for inspection, or IOException while
        the object is not created. */
    method GetInfo() returns (r: Result<Path>)
      ensures r.Failure? <==> !IsCreated()
      ensures r.Failure? ==> r.error == IO
      ensures r.Success? ==> path == Some(r.value) && r.value in disk.nodes
                             && (kind == FileKind ==> IsFile(disk.nodes, r.value))
                             && (kind == DirectoryKind ==> IsDir(disk.nodes, r.value))
    {
      if !IsCreated() {
        return Failure(IO);
      }
      r := Success(path.value);
    }

    /** rename($newName, $overwrite): IOException while not created, then
        the same checks and outcome as FileSystem::rename. */
    method Rename(newName: Arg<Name>, overwrite: Value) returns (r: Result<bool>)
      requires WellFormed(disk.nodes)
      modifies this, disk
      ensures WellFormed(disk.nodes)
      ensures !old(IsCreated()) ==> r == Failure(IO) && disk.nodes == old(disk.nodes)
      ensures old(IsCreated()) && newName.WrongType? ==> r == Failure(InvalidArgument) && disk.nodes == old(disk.nodes)
      ensures old(IsCreated()) && newName.Given? ==>
                var np := Child(DirOf(old(path)), newName.value);
                && (Collides(old(disk.nodes), kind, np) && !Truthy(overwrite) ==>
                      r == Failure(IO) && disk.nodes == old(disk.nodes))
                && (!(Collides(old(disk.nodes), kind, np) && !Truthy(overwrite))
                    && !(kind == DirectoryKind && IsDir(old(disk.nodes), np)) ==>
                      && r == Success(FsTable.Rename(old(disk.nodes), old(path), np).Some?)
                      && disk.nodes == RenamedOrKept(old(disk.nodes), old(path), np))
                && (kind == DirectoryKind && IsDir(old(disk.nodes), np) && Truthy(overwrite)
                    && !Directories.Removable(old(disk.nodes), Some(np)) ==>
                      r.Failure? && Directories.PartlyRemoved(old(disk.nodes), disk.nodes, Some(np)))
                && (kind == DirectoryKind && IsDir(old(disk.nodes), np) && Truthy(overwrite)
                    && Directories.Removable(old(disk.nodes), Some(np)) ==>
                      var cleared := RemoveTree(old(disk.nodes), np);
                      r == Success(FsTable.Rename(cleared, old(path), np).Some?)
                      && disk.nodes == RenamedOrKept(cleared, old(path), np))
                && (r == Success(true) ==> path == Some(np) && old(path).Some? && old(path).value in old(disk.nodes)
                                           && np in disk.nodes && disk.nodes[np] == old(disk.nodes)[old(path).value])
      ensures r != Success(true) ==> path == old(path)
    {
      if !IsCreated() {
        return Failure(IO);
      }
      if newName.WrongType? {
        return Failure(InvalidArgument);
      }
      var info := GetInfo();
      var np := Child(DirOf(Some(info.value)), newName.value);
      r := RenameEntry(disk, kind, path, np, overwrite);
      if r == Success(true) {
        path := Some(np);
      }
    }
  }
}

=== FILE: filesystem.dfy ===
/** Kappa\FileSystem\FileSystem: the base class of File and Directory in one
    revision of the library. The object remembers which of the two it is
    (the `instanceof` tests of the source), holds a path and offers
    create(), isUsable() and rename(). */
module FileSystemBase {
  import opened Php
  import opened FsTable
  import Directories

  /** Which subclass an object is: File, Directory or neither. */
  datatype Kind = FileKind | DirectoryKind | OtherKind

  const STRICT: int := 0
  const INTUITIVE: int := 1

  /** isUsable() (and FileStorage::isCreated()) read as a truth value: the
      path is readable and writable and holds a node of the object's kind;
      an object that is neither a File nor a Directory is never usable. */
  function Usable(t: Table, kind: Kind, p: Option<Path>): (r: bool)
    ensures r ==> p.Some? && p.value in t && t[p.value].readable && t[p.value].writable
    ensures r ==> (kind == FileKind <==> t[p.value].FileNode?) && (kind == DirectoryKind <==> t[p.value].DirNode?)
    ensures (&& p.Some? && p.value in t && t[p.value].readable && t[p.value].writable
             && ((kind == FileKind && t[p.value].FileNode?) || (kind == DirectoryKind && t[p.value].DirNode?))) ==> r
  {
    && p.Some? && IsWritable(t, p.value) && IsReadable(t, p.value)
    && match kind
       case FileKind => IsFile(t, p.value)
       case DirectoryKind => IsDir(t, p.value)
       case OtherKind => false
  }

  /** realpath() of a path that may already be `false`. */
  function Canonical(t: Table, p: Option<Path>): (r: Option<Path>)
    ensures r.Some? <==> p.Some? && p.value in t
    ensures r.Some? ==> r == p
  {
    if p.None? then None else RealPath(t, p.value)
  }

  /** The table after the creating call of create(): fopen($path, 'w+') for a
      File, mkdir($path) for a Directory, nothing for anything else; a call
      that fails leaves the table as it was. */
  function Created(t: Table, kind: Kind, p: Option<Path>): Table {
    match kind
    case FileKind => if Open(t, p, true).Some? then Open(t, p, true).value else t
    case DirectoryKind => if Mkdir(t, p).Some? then Mkdir(t, p).value else t
    case OtherKind => t
  }

  /** Creating an object that is not usable makes it usable exactly when the
      creating call succeeds, and never for an object of neither kind. */
  lemma CreatedUsable(t: Table, kind: Kind, p: Option<Path>)
    requires !Usable(t, kind, p)
    ensures Usable(Created(t, kind, p), kind, Canonical(Created(t, kind, p), p)) <==>
              || (kind == FileKind && Open(t, p, true).Some?)
              || (kind == DirectoryKind && Mkdir(t, p).Some?)
  {
  }

  /** A File collides with an existing file, a Directory with an existing
      directory; rename() refuses the collision unless $overwrite holds. */
  predicate Collides(t: Table, kind: Kind, np: Path) {
    || (kind == FileKind && IsFile(t, np))
    || (kind == DirectoryKind && IsDir(t, np))
  }

  /** The table after rename($p, $np): renamed when rename() succeeds,
      unchanged when it returns false. */
  function RenamedOrKept(t: Table, p: Option<Path>, np: Path): Table {
    if FsTable.Rename(t, p, np).Some? then FsTable.Rename(t, p, np).value else t
  }

  /** The body shared by FileSystem::rename and FileStorage::rename once the
      new path is known: the collision check, the removal of a directory in
      the way, then the operating system's rename() whose outcome is the
      result. */
  method RenameEntry(disk: Disk, kind: Kind, p: Option<Path>, np: Path, overwrite: Value) returns (r: Result<bool>)
    requires WellFormed(disk.nodes)
    modifies disk
    ensures WellFormed(disk.nodes)
    ensures Collides(old(disk.nodes), kind, np) && !Truthy(overwrite) ==>
              r == Failure(IO) && disk.nodes == old(disk.nodes)
    ensures !(Collides(old(disk.nodes), kind, np) && !Truthy(overwrite)) && !(kind == DirectoryKind && IsDir(old(disk.nodes), np)) ==>
              && r == Success(FsTable.Rename(old(disk.nodes), p, np).Some?)
              && disk.nodes == RenamedOrKept(old(disk.nodes), p, np)
    ensures kind == DirectoryKind && IsDir(old(disk.nodes), np) && Truthy(overwrite) ==>
              && (!Directories.Removable(old(disk.nodes), Some(np)) ==>
                    r.Failure? && Directories.PartlyRemoved(old(disk.nodes), disk.nodes, Some(np)))
              && (Directories.Removable(old(disk.nodes), Some(np)) ==>
                    var cleared := RemoveTree(old(disk.nodes), np);
                    r == Success(FsTable.Rename(cleared, p, np).Some?) && disk.nodes == RenamedOrKept(cleared, p, np))
    ensures r == Success(true) ==> p.Some? && p.value in old(disk.nodes) && np in disk.nodes && disk.nodes[np] == old(disk.nodes)[p.value]
  {
    if Collides(disk.nodes, kind, np) && !Truthy(overwrite) {
      return Failure(IO);
    }
    if kind == DirectoryKind && IsDir(disk.nodes, np) {
      var d := new Directories.Directory.Bind(disk, np);
      var removed := d.Remove();
      if removed.Failure? {
        return Failure(removed.error);
      }
    }
    var renamed := FsTable.Rename(disk.nodes, p, np);
    if renamed.None? {
      return Success(false);
    }
    RenameWellFormed(disk.nodes, p, np);
    RenameMovesNode(disk.nodes, p, np);
    disk.nodes := renamed.value;
    r := Success(true);
  }

  class FileSystem {
    const disk: Disk
    const kind: Kind
    var path: Option<Path>

    constructor Bind(disk: Disk, kind: Kind, p: Path)
      ensures this.disk == disk && this.kind == kind && path == Some(p)
    {
      this.disk := disk;
      this.kind := kind;
      path := Some(p);
    }

    /** isUsable() on the current state: `false` when the path is not both
        writable and readable, is_file() or is_dir() by kind, and null (no
        return statement is reached) for an object of neither kind. */
    function IsUsable(): (v: Value)
      reads this, disk
      ensures Truthy(v) <==> Usable(disk.nodes, kind, path)
      ensures v.Null? <==> kind == OtherKind && path.Some? && path.value in disk.nodes
                           && disk.nodes[path.value].readable && disk.nodes[path.value].writable
      ensures v.Bool? || v.Null?
    {
      if path.Some? && IsWritable(disk.nodes, path.value) && IsReadable(disk.nodes, path.value) then
        match kind
        case FileKind => Bool(IsFile(disk.nodes, path.value))
        case DirectoryKind => Bool(IsDir(disk.nodes, path.value))
        case OtherKind => Null
      else Bool(false)
    }

    /** new FileSystem($path, $sensitivity): keeps a usable path; otherwise
        only INTUITIVE sensitivity (compared with ===) calls create(). */
    static method New(disk: Disk, kind: Kind, path: Arg<Path>, sensitivity: Value) returns (r: Result<FileSystem>)
      requires WellFormed(disk.nodes)
      modifies disk
      ensures WellFormed(disk.nodes)
      ensures path.WrongType? ==> r == Failure(InvalidArgument) && disk.nodes == old(disk.nodes)
      ensures path.Given? ==> r.Success? && fresh(r.value) && r.value.disk == disk && r.value.kind == kind
      ensures path.Given? && (Usable(old(disk.nodes), kind, Some(path.value)) || sensitivity != Int(INTUITIVE)) ==>
                disk.nodes == old(disk.nodes) && r.value.path == Some(path.value)
      ensures path.Given? && !Usable(old(disk.nodes), kind, Some(path.value)) && sensitivity == Int(INTUITIVE) ==>
                && disk.nodes == Created(old(disk.nodes), kind, Some(path.value))
                && r.value.path == Canonical(disk.nodes, Some(path.value))
    {
      if path.WrongType? {
        return Failure(InvalidArgument);
      }
      var fs := new FileSystem.Bind(disk, kind, path.value);
      if !Truthy(fs.IsUsable()) && sensitivity == Int(INTUITIVE) {
        var _ := fs.Create();
      }
      r := Success(fs);
    }

    /** create(): nothing to do for a usable object; otherwise fopen w+ or
        mkdir by kind, then the path becomes its realpath() and the result
        is isUsable(). */
    method Create() returns (r: Value)
      requires WellFormed(disk.nodes)
      modifies this, disk
      ensures WellFormed(disk.nodes)
      ensures old(Usable(disk.nodes, kind, path)) ==> r == Bool(true) && disk.nodes == old(disk.nodes) && path == old(path)
      ensures !old(Usable(disk.nodes, kind, path)) ==>
                && disk.nodes == Created(old(disk.nodes), kind, old(path))
                && path == Canonical(disk.nodes, old(path))
                && (Truthy(r) <==> || (kind == FileKind && Open(old(disk.nodes), old(path), true).Some?)
                                   || (kind == DirectoryKind && Mkdir(old(disk.nodes), old(path)).Some?))
      ensures Truthy(r) <==> Usable(disk.nodes, kind, path)
    {
      if Truthy(IsUsable()) {
        return Bool(true);
      }
      CreatedUsable(disk.nodes, kind, path);
      disk.nodes := Created(disk.nodes, kind, path);
      path := Canonical(disk.nodes, path);
      r := IsUsable();
    }

    /** rename($newName, $overwrite): renames to the sibling path named
        $newName; true and the new path on success, false and the old path
        when the operating system refuses. */
    method Rename(newName: Arg<Name>, overwrite: Value) returns (r: Result<bool>)
      requires WellFormed(disk.nodes)
      modifies this, disk
      ensures WellFormed(disk.nodes)
      ensures newName.WrongType? ==> r == Failure(InvalidArgument) && disk.nodes == old(disk.nodes)
      ensures newName.Given? ==>
                var np := Child(DirOf(old(path)), newName.value);
                && (Collides(old(disk.nodes), kind, np) && !Truthy(overwrite) ==>
                      r == Failure(IO) && disk.nodes == old(disk.nodes))
                && (!(Collides(old(disk.nodes), kind, np) && !Truthy(overwrite))
                    && !(kind == DirectoryKind && IsDir(old(disk.nodes), np)) ==>
                      && r == Success(FsTable.Rename(old(disk.nodes), old(path), np).Some?)
                      && disk.nodes == RenamedOrKept(old(disk.nodes), old(path), np))
                && (kind == DirectoryKind && IsDir(old(disk.nodes), np) && Truthy(overwrite)
                    && !Directories.Removable(old(disk.nodes), Some(np)) ==>
                      r.Failure? && Directories.PartlyRemoved(old(disk.nodes), disk.nodes, Some(np)))
                && (kind == DirectoryKind && IsDir(old(disk.nodes), np) && Truthy(overwrite)
                    && Directories.Removable(old(disk.nodes), Some(np)) ==>
                      var cleared := RemoveTree(old(disk.nodes), np);
                      r == Success(FsTable.Rename(cleared, old(path), np).Some?)
                      && disk.nodes == RenamedOrKept(cleared, old(path), np))
                && (r == Success(true) ==> path == Some(np) && old(path).Some? && old(path).value in old(disk.nodes)
                                           && np in disk.nodes && disk.nodes[np] == old(disk.nodes)[old(path).value])
      ensures r != Success(true) ==> path == old(path)
    {
      if newName.WrongType? {
        return Failure(InvalidArgument);
      }
      var np := Child(DirOf(path), newName.value);
      r := RenameEntry(disk, kind, path, np, overwrite);
      if r == Success(true) {
        path := Some(np);
      }
    }
  }
}

=== FILE: php.dfy ===
/** PHP-level values shared by the whole model: optional results (PHP `false`
    and `null`), the library's error kinds, type-checked arguments and the
    scalar values that may be written into a file. */
module Php {

  datatype Option<+T> = None | Some(value: T)

  /** The exceptions an operation can end with. */
  datatype Error =
    | InvalidArgument  // Kappa\FileSystem\InvalidArgumentException
    | IO               // Kappa\FileSystem\IOException
    | PhpRuntime       // raised by PHP itself: SPL iterator exceptions, parameter type errors

  datatype Result<+T> = Success(value: T) | Failure(error: Error)

  /** An argument whose PHP type the callee checks (is_string, is_bool):
      either a value of the expected type or a value of some other type. */
  datatype Arg<+T> = Given(value: T) | WrongType

  /** The scalar values a caller may hand to File::overwrite and File::append. */
  datatype Value = Null | Bool(b: bool) | Int(i: int) | Str(s: string)

  /** PHP's conversion to bool for strings: only "" and "0" are false. */
  predicate TruthyString(s: string) {
    s != "" && s != "0"
  }

  /** PHP's conversion to bool. */
  predicate Truthy(v: Value) {
    match v
    case Null => false
    case Bool(b) => b
    case Int(i) => i != 0
    case Str(s) => TruthyString(s)
  }

  /** The guard of File::overwrite and File::append: a truthy value must be a
      string or a number. */
  predicate Writable(v: Value) {
    !(Truthy(v) && !v.Str? && !v.Int?)
  }

  function DigitChar(d: nat): (c: char)
    requires d < 10
    ensures '0' <= c <= '9'
  {
    "0123456789"[d]
  }

  /** Decimal digits of a natural number, most significant first. */
  function Digits(n: nat): (s: string)
    ensures |s| > 0 && (forall k :: 0 <= k < |s| ==> '0' <= s[k] <= '9')
    ensures n >= 10 ==> |s| >= 2
    ensures s == "0" <==> n == 0
  {
    if n < 10 then [DigitChar(n)] else Digits(n / 10) + [DigitChar(n % 10)]
  }

  /** PHP's string conversion of an integer. */
  function Decimal(i: int): (s: string)
    ensures TruthyString(s) <==> i != 0
  {
    if i < 0 then "-" + Digits(-i) else Digits(i)
  }

  /** The bytes fwrite puts in a file for a value that passed the guard:
      null and false are empty, true is "1", integers are decimal. */
  function Text(v: Value): (s: string)
    ensures Truthy(v) <==> TruthyString(s)
  {
    match v
    case Null => ""
    case Bool(b) => if b then "1" else ""
    case Int(i) => Decimal(i)
    case Str(s) => s
  }

  /** The white space PHP skips in front of a numeric string: space, tab,
      line feed, carriage return, vertical tab and form feed. */
  predicate NumericSpace(c: char) {
    c == ' ' || c == '\t' || c == '\n' || c == '\r' || c == '\U{000B}' || c == '\U{000C}'
  }

  predicate IsDigit(c: char) {
    '0' <= c <= '9'
  }

  /** s without its leading white space. */
  function SkipSpace(s: string): (r: string)
    ensures |r| <= |s| && r == s[|s| - |r|..]
    ensures forall k | 0 <= k < |s| - |r| :: NumericSpace(s[k])
    ensures r == [] || !NumericSpace(r[0])
  {
    if s != [] && NumericSpace(s[0]) then SkipSpace(s[1..]) else s
  }

  /** The length of the run of digits s starts with. */
  function DigitRun(s: string): (n: nat)
    ensures n <= |s| && (forall k | 0 <= k < n :: IsDigit(s[k]))
    ensures n == |s| || !IsDigit(s[n])
  {
    if s != [] && IsDigit(s[0]) then 1 + DigitRun(s[1..]) else 0
  }

  /** The value of a string of decimal digits. */
  function DigitsValue(s: string): (v: nat)
    requires forall k | 0 <= k < |s| :: IsDigit(s[k])
    ensures |s| == 1 ==> v == s[0] as int - '0' as int
  {
    if s == [] then 0
    else
      assert IsDigit(s[|s| - 1]);
      10 * DigitsValue(s[..|s| - 1]) + (s[|s| - 1] as int - '0' as int)
  }

  /** An exact decimal number: mantissa times ten to the exponent. */
  datatype Number = Number(mantissa: int, exponent: int)

  function Pow10(n: nat): (r: nat)
    ensures r >= 1
  {
    if n == 0 then 1 else 10 * Pow10(n - 1)
  }

  /** Two decimal numbers with the same value. */
  predicate SameNumber(a: Number, b: Number) {
    var e := if a.exponent <= b.exponent then a.exponent else b.exponent;
    a.mantissa * Pow10(a.exponent - e) == b.mantissa * Pow10(b.exponent - e)
  }

  /** The exponent part that may end a numeric string: nothing, or `e`/`E`,
      an optional sign and at least one digit. */
  function ExponentPart(w: string): (r: Option<int>)
    ensures w == [] ==> r == Some(0)
    ensures w != [] && w[0] != 'e' && w[0] != 'E' ==> r.None?
  {
    if w == [] then Some(0)
    else if w[0] == 'e' || w[0] == 'E' then
      var signed := |w| > 1 && (w[1] == '+' || w[1] == '-');
      var x := if signed then w[2..] else w[1..];
      if x != [] && DigitRun(x) == |x| then
        Some((if signed && w[1] == '-' then -1 else 1) * DigitsValue(x))
      else None
    else None
  }

  /** The value of a numeric string as PHP's string comparison reads it:
      leading white space, an optional sign, digits with an optional
      fraction (at least one digit in all) and an optional exponent, with
      nothing after them; None for any other string. */
  function NumericValue(s: string): (r: Option<Number>)
    ensures s == [] ==> r.None?
  {
    SignedValue(SkipSpace(s))
  }

  /** The value of t, which starts after the white space. */
  function SignedValue(t: string): Option<Number> {
    if t != [] && (t[0] == '+' || t[0] == '-') then
      match UnsignedValue(t[1..])
      case None => None
      case Some(n) => Some(if t[0] == '-' then Number(-n.mantissa, n.exponent) else n)
    else UnsignedValue(t)
  }

  /** The value of u, which starts after the sign. */
  function UnsignedValue(u: string): Option<Number> {
    var i := DigitRun(u);
    if i < |u| && u[i] == '.' then
      var j := DigitRun(u[i + 1..]);
      Scaled(u[..i], u[i + 1..][..j], u[i + 1..][j..])
    else Scaled(u[..i], [], u[i..])
  }

  /** The number with integer digits whole and fraction digits frac, when
      at least one digit is there and the rest w is an exponent part. */
  function Scaled(whole: string, frac: string, w: string): Option<Number>
    requires forall k | 0 <= k < |whole| :: IsDigit(whole[k])
    requires forall k | 0 <= k < |frac| :: IsDigit(frac[k])
  {
    if |whole| + |frac| == 0 then None
    else match ExponentPart(w)
      case None => None
      case Some(x) =>
        assert forall k | 0 <= k < |whole + frac| :: IsDigit((whole + frac)[k]);
        Some(Number(DigitsValue(whole + frac), x - |frac|))
  }

  /** `$a == $b` on two strings: compared as numbers when both are numeric
      strings, byte by byte otherwise. */
  predicate LooseEquals(a: string, b: string) {
    match (NumericValue(a), NumericValue(b))
    case (Some(x), Some(y)) => SameNumber(x, y)
    case _ => a == b
  }

  /** in_array($x, $xs) without the strict flag, on a list of strings. */
  predicate InArray(x: string, xs: seq<string>) {
    exists k | 0 <= k < |xs| :: LooseEquals(x, xs[k])
  }

  /** A member of the list is found by in_array, and a string that is not
      numeric is found exactly when it is a member. */
  lemma InArrayOfMembers(x: string, xs: seq<string>)
    ensures x in xs ==> InArray(x, xs)
    ensures NumericValue(x).None? ==> (InArray(x, xs) <==> x in xs)
  {
    if x in xs {
      var k :| 0 <= k < |xs| && xs[k] == x;
      assert LooseEquals(x, xs[k]);
    }
  }

  /** Loose comparison finds a name that is not in the list: "01", " 1" and
      "1.0" all equal "1". */
  lemma NumericNamesMatchLoosely()
    ensures InArray("01", ["1"]) && "01" !in ["1"]
    ensures InArray(" 1", ["1"]) && InArray("1.0", ["1"])
  {
    assert ["1"][0] == "1";
    LeadingZeroEqualsOne();
    LeadingSpaceEqualsOne();
    OnePointZeroEqualsOne();
  }

  lemma LeadingZeroEqualsOne()
    ensures LooseEquals("01", "1")
  {
    ValueOfOne();
    ValueOfLeadingZero();
  }

  lemma LeadingSpaceEqualsOne()
    ensures LooseEquals(" 1", "1")
  {
    ValueOfOne();
    ValueOfLeadingSpace();
  }

  lemma OnePointZeroEqualsOne()
    ensures LooseEquals("1.0", "1")
  {
    ValueOfOne();
    ValueOfOnePointZero();
    assert Pow10(1) == 10;
  }

  /** The run of digits in front of a non-digit is the whole prefix. */
  lemma {:induction false} DigitRunOf(d: string, rest: string)
    requires forall k | 0 <= k < |d| :: IsDigit(d[k])
    requires rest == [] || !IsDigit(rest[0])
    ensures DigitRun(d + rest) == |d|
    decreases |d|
  {
    if d != [] {
      assert (d + rest)[1..] == d[1..] + rest;
      DigitRunOf(d[1..], rest);
    } else {
      assert d + rest == rest;
    }
  }

  /** A string of digits is numeric, with its decimal value. */
  lemma DigitsAreNumeric(d: string)
    requires d != [] && forall k | 0 <= k < |d| :: IsDigit(d[k])
    ensures NumericValue(d) == Some(Number(DigitsValue(d), 0))
  {
    assert IsDigit(d[0]);
    assert SkipSpace(d) == d;
    assert SignedValue(d) == UnsignedValue(d);
    UnsignedDigits(d);
    ScaledDigits(d);
  }

  lemma UnsignedDigits(d: string)
    requires forall k | 0 <= k < |d| :: IsDigit(d[k])
    ensures UnsignedValue(d) == Scaled(d, [], [])
  {
    assert DigitRun(d) == |d| by {
      DigitRunOf(d, []);
      assert d + [] == d;
    }
    assert d[..|d|] == d && d[|d|..] == [];
  }

  lemma ScaledDigits(d: string)
    requires d != [] && forall k | 0 <= k < |d| :: IsDigit(d[k])
    ensures Scaled(d, [], []) == Some(Number(DigitsValue(d), 0))
  {
    var e: string := [];
    assert d + e == d;
    assert ExponentPart(e) == Some(0);
  }

  /** Digits, a point and digits form a numeric string. */
  lemma PointedIsNumeric(d: string, f: string)
    requires d != [] && forall k | 0 <= k < |d| :: IsDigit(d[k])
    requires forall k | 0 <= k < |f| :: IsDigit(f[k])
    ensures NumericValue(d + "." + f) == Some(Number(DigitsValue(d + f), -|f|))
  {
    PointedIsScaled(d, f);
    ScaledWithoutExponent(d, f);
  }

  /** Digits with no exponent part after them. */
  lemma ScaledWithoutExponent(whole: string, frac: string)
    requires |whole| + |frac| > 0
    requires forall k | 0 <= k < |whole| :: IsDigit(whole[k])
    requires forall k | 0 <= k < |frac| :: IsDigit(frac[k])
    ensures Scaled(whole, frac, []) == Some(Number(DigitsValue(whole + frac), -|frac|))
  {
    var e: string := [];
    assert ExponentPart(e) == Some(0);
  }

  lemma PointedIsScaled(d: string, f: string)
    requires d != [] && forall k | 0 <= k < |d| :: IsDigit(d[k])
    requires forall k | 0 <= k < |f| :: IsDigit(f[k])
    ensures NumericValue(d + "." + f) == Scaled(d, f, [])
  {
    var s := d + "." + f;
    assert SkipSpace(s) == s by { assert s[0] == d[0]; }
    assert s == d + ("." + f);
    DigitRunOf(d, "." + f);
    DigitRunOf(f, []);
    assert f + [] == f;
    assert UnsignedValue(s) == Scaled(d, f, []) by {
      assert s[..|d|] == d && s[|d|] == '.' && s[|d| + 1..] == f;
      assert f[..|f|] == f && f[|f|..] == [];
    }
  }

  lemma ValueOfOne()
    ensures NumericValue("1") == Some(Number(1, 0))
  {
    DigitsAreNumeric("1");
  }

  lemma ValueOfLeadingZero()
    ensures NumericValue("01") == Some(Number(1, 0))
  {
    DigitsAreNumeric("01");
    assert DigitsValue("01") == 1 by { assert "01"[..1] == "0"; }
  }

  lemma ValueOfLeadingSpace()
    ensures NumericValue(" 1") == Some(Number(1, 0))
  {
    assert SkipSpace(" 1") == SkipSpace("1") by { assert " 1"[1..] == "1"; }
    ValueOfOne();
  }

  lemma ValueOfOnePointZero()
    ensures NumericValue("1.0") == Some(Number(10, -1))
  {
    PointedIsNumeric("1", "0");
    assert "1" + "." + "0" == "1.0";
    assert DigitsValue("1" + "0") == 10 by { assert ("1" + "0")[..1] == "1"; }
  }

  /** PHP_EOL on the platforms the library targets. */
  const EOL: string := "\n"
}

=== FILE: splfileinfo.dfy ===
/** Kappa\FileSystem\SplFileInfo: the two string queries the library adds to
    PHP's SplFileInfo. Both work on the pathname string the object was made
    with. */
module PathInfo {
  import opened Php

  /** The characters trim() strips by default: space, tab, line feed,
      carriage return, NUL and vertical tab. */
  predicate Blank(c: char) {
    c == ' ' || c == '\t' || c == '\n' || c == '\r' || c == '\0' || c == '\U{000B}'
  }

  /** ltrim(): s without its leading blanks. */
  function TrimStart(s: string): (r: string)
    ensures |r| <= |s| && r == s[|s| - |r|..]
    ensures forall i | 0 <= i < |s| - |r| :: Blank(s[i])
    ensures r == [] || !Blank(r[0])
  {
    if s != [] && Blank(s[0]) then TrimStart(s[1..]) else s
  }

  /** rtrim(): s without its trailing blanks. */
  function TrimEnd(s: string): (r: string)
    ensures |r| <= |s| && r == s[..|r|]
    ensures forall i | |r| <= i < |s| :: Blank(s[i])
    ensures r == [] || !Blank(r[|r| - 1])
  {
    if s != [] && Blank(s[|s| - 1]) then TrimEnd(s[..|s| - 1]) else s
  }

  /** trim(). */
  function Trim(s: string): (r: string)
    ensures r == [] || (!Blank(r[0]) && !Blank(r[|r| - 1]))
    ensures exists i, j | 0 <= i <= j <= |s| ::
              && r == s[i..j]
              && (forall k | 0 <= k < i :: Blank(s[k]))
              && (forall k | j <= k < |s| :: Blank(s[k]))
  {
    var u := TrimStart(s);
    var r := TrimEnd(u);
    TrimmedSlice(s, u, r);
    r
  }

  /** ltrim then rtrim cut blanks only, from the front and from the back. */
  lemma TrimmedSlice(s: string, u: string, r: string)
    requires |u| <= |s| && u == s[|s| - |u|..] && forall k | 0 <= k < |s| - |u| :: Blank(s[k])
    requires |r| <= |u| && r == u[..|r|] && forall k | |r| <= k < |u| :: Blank(u[k])
    ensures var i, j := |s| - |u|, |s| - |u| + |r|;
            && 0 <= i <= j <= |s| && r == s[i..j]
            && (forall k | 0 <= k < i :: Blank(s[k]))
            && (forall k | j <= k < |s| :: Blank(s[k]))
  {
    var i, j := |s| - |u|, |s| - |u| + |r|;
    assert u == s[i..];
    assert r == u[..|r|];
    assert r == s[i..j];
    forall k | j <= k < |s| ensures Blank(s[k]) {
      assert s[k] == u[k - i];
    }
  }

  /** pat occurs somewhere in s. */
  predicate Occurs(pat: string, s: string)
    decreases |s|
  {
    |pat| <= |s| && (s[..|pat|] == pat || Occurs(pat, s[1..]))
  }

  /** str_replace($pat, "", $s): deletes every occurrence of pat, scanning
      left to right without overlaps; an empty pat changes nothing. */
  function DeleteAll(s: string, pat: string): (r: string)
    ensures |r| <= |s|
    decreases |s|
  {
    if pat == [] || |s| < |pat| then s
    else if s[..|pat|] == pat then DeleteAll(s[|pat|..], pat)
    else [s[0]] + DeleteAll(s[1..], pat)
  }

  /** A character that does not start an occurrence of pat is kept, and the
      scan goes on from the next character. */
  lemma DeleteAllKeepsOther(s: string, pat: string)
    requires s != [] && !(pat != [] && pat <= s)
    ensures DeleteAll(s, pat) == [s[0]] + DeleteAll(s[1..], pat)
  {
    if pat == [] {
      assert [s[0]] + s[1..] == s;
    } else if |s| < |pat| {
      assert [s[0]] + s[1..] == s;
    } else {
      assert s[..|pat|] != pat;
    }
  }

  /** DeleteAll takes out whole copies of pat, k of them, and nothing else. */
  lemma {:induction false} DeleteAllRemovesWholeCopies(s: string, pat: string) returns (k: nat)
    ensures |s| == |DeleteAll(s, pat)| + k * |pat|
    decreases |s|
  {
    if pat == [] || |s| < |pat| {
      k := 0;
    } else if s[..|pat|] == pat {
      var j := DeleteAllRemovesWholeCopies(s[|pat|..], pat);
      k := j + 1;
      assert (j + 1) * |pat| == j * |pat| + |pat|;
    } else {
      k := DeleteAllRemovesWholeCopies(s[1..], pat);
    }
  }

  /** A string that does not contain pat comes out of DeleteAll unchanged. */
  lemma {:induction false} DeleteAllAbsent(s: string, pat: string)
    requires !Occurs(pat, s)
    ensures DeleteAll(s, pat) == s
    decreases |s|
  {
    if pat != [] && |s| >= |pat| {
      DeleteAllAbsent(s[1..], pat);
      assert s == [s[0]] + s[1..];
    }
  }

  /** An occurrence at the front is deleted, and the rest is scanned on. */
  lemma DeleteAllLeading(pat: string, rest: string)
    requires pat != []
    ensures DeleteAll(pat + rest, pat) == DeleteAll(rest, pat)
  {
    assert (pat + rest)[..|pat|] == pat;
    assert (pat + rest)[|pat|..] == rest;
  }

  /** getRelativePath($root): every occurrence of realpath($root) is deleted
      from the pathname, then the result is trimmed. realpath() is given as
      its outcome: None for `false`, which str_replace() reads as "". */
  function GetRelativePath(pathname: string, root: Option<string>): (r: string)
    ensures root.None? || root.value == [] ==> r == Trim(pathname)
  {
    Trim(DeleteAll(pathname, if root.None? then "" else root.value))
  }

  /** A pathname made of the root and a rest that does not contain the root
      gives the trimmed rest, leading separator included. */
  lemma RelativeOfRootAndRest(root: string, rest: string)
    requires root != [] && !Occurs(root, rest)
    ensures GetRelativePath(root + rest, Some(root)) == Trim(rest)
  {
    DeleteAllLeading(root, rest);
    DeleteAllAbsent(rest, root);
  }

  /** The root is deleted wherever it occurs, not only at the front. */
  lemma RootDeletedInside()
    ensures GetRelativePath("/a/b/a", Some("/a")) == "/b"
  {
    assert "/a/b/a" == "/a" + "/b/a";
    DeleteAllLeading("/a", "/b/a");
    assert DeleteAll("/a", "/a") == "" by {
      DeleteAllLeading("/a", "");
    }
    assert DeleteAll("b/a", "/a") == "b" by {
      assert "b/a"[..2] != "/a" && "b/a"[1..] == "/a";
    }
    assert DeleteAll("/b/a", "/a") == "/b" by {
      assert "/b/a"[..2] != "/a" && "/b/a"[1..] == "b/a";
    }
    assert Trim("/b") == "/b" by {
      assert !Blank('/') && !Blank('b');
    }
  }

  /** strrchr($s, $c): the part of s from its last c to the end, or `false`
      when c does not occur. */
  function Strrchr(s: string, c: char): (r: Option<string>)
    ensures r.None? <==> c !in s
    ensures r.Some? ==> && 1 <= |r.value| <= |s| && r.value == s[|s| - |r.value|..]
                        && r.value[0] == c && c !in r.value[1..]
  {
    if s == [] then None
    else if s[|s| - 1] == c then Some([c])
    else match Strrchr(s[..|s| - 1], c)
      case None => None
      case Some(t) => Some(t + [s[|s| - 1]])
  }

  lemma StrrchrSkipsLast(u: string, x: char, c: char)
    requires c in u && x != c
    ensures Strrchr(u + [x], c) == Some(Strrchr(u, c).value + [x])
  {
    assert (u + [x])[..|u|] == u;
  }

  /** Text after the last c does not change where strrchr() starts. */
  lemma {:induction false} StrrchrAppend(s: string, t: string, c: char)
    requires c in s && c !in t
    ensures Strrchr(s + t, c) == Some(Strrchr(s, c).value + t)
    decreases |t|
  {
    if t != [] {
      var front, last := t[..|t| - 1], t[|t| - 1];
      assert t == front + [last];
      assert c !in front && last != c;
      assert s + t == (s + front) + [last];
      assert c in s + front;
      StrrchrAppend(s, front, c);
      StrrchrSkipsLast(s + front, last, c);
      Regroup(Strrchr(s, c).value, front, [last]);
    } else {
      assert s + t == s;
      assert Strrchr(s, c).value + t == Strrchr(s, c).value;
    }
  }

  /** Concatenation regrouped, as a separate step of StrrchrAppend. */
  lemma Regroup(x: string, y: string, z: string)
    ensures x + y + z == x + (y + z)
  {
  }

  /** getFileExtension(): strrchr() of the whole pathname at '.'. */
  function GetFileExtension(pathname: string): (r: Option<string>)
    ensures r.None? <==> '.' !in pathname
    ensures r.Some? ==> && 1 <= |r.value| <= |pathname| && r.value[0] == '.' && '.' !in r.value[1..]
                        && pathname == pathname[..|pathname| - |r.value|] + r.value
  {
    Strrchr(pathname, '.')
  }

  /** A dot in a directory name is found when the base name has none: the
      "extension" then runs across the separator into the base name. */
  lemma ExtensionFromDirectory(dir: string, base: string)
    requires '.' in dir && '.' !in base
    ensures GetFileExtension(dir + "/" + base) == Some(Strrchr(dir, '.').value + "/" + base)
  {
    SeparatorAddsNoDot(base);
    assert dir + "/" + base == dir + ("/" + base);
    StrrchrAppend(dir, "/" + base, '.');
    assert Strrchr(dir, '.').value + "/" + base == Strrchr(dir, '.').value + ("/" + base);
  }

  lemma SeparatorAddsNoDot(base: string)
    requires '.' !in base
    ensures '.' !in "/" + base
  {
    var t := "/" + base;
    forall i | 0 <= i < |t| ensures t[i] != '.' {
      if i > 0 {
        assert t[i] == base[i - 1];
      }
    }
  }

  /** The same, on a concrete path. */
  lemma ExtensionOfDottedDirectory()
    ensures GetFileExtension("/a.d/f") == Some(".d/f")
  {
    assert "/a.d/f" == "/a.d" + "/" + "f";
    LastDotOfDirectory();
    ExtensionFromDirectory("/a.d", "f");
  }

  lemma LastDotOfDirectory()
    ensures '.' in "/a.d" && Strrchr("/a.d", '.') == Some(".d")
  {
    assert "/a.d"[2] == '.';
    assert "/a.d"[..3] == "/a.";
    assert Strrchr("/a.", '.') == Some(".");
  }
}

=== FILE: table.dfy ===
/** The filesystem as the library sees it: a finite table from canonical paths
    to nodes, and the PHP primitives (mkdir, rmdir, unlink, fopen, rename,
    copy, file_get_contents) as functions on that table. A primitive that
    fails yields None, PHP's `false`, and leaves the table as it was. */
module FsTable {
  import opened Php

  /** One path component. */
  type Name = string

  /** A canonical absolute path; [] is the root directory. */
  type Path = seq<Name>

  datatype Node =
    | FileNode(content: string, readable: bool, writable: bool)
    | DirNode(readable: bool, writable: bool)

  type Table = map<Path, Node>

  /** The deepest path the operating system lets one create (ENAMETOOLONG
      beyond it): PATH_MAX is 4096 bytes and a component takes at least two. */
  const MaxDepth: nat := 2048

  /** The state of the disk, shared by every entity object. */
  class Disk {
    var nodes: Table

    constructor (t: Table)
      ensures nodes == t
    {
      nodes := t;
    }
  }

  function Parent(p: Path): Path
    requires p != []
  {
    p[..|p| - 1]
  }

  /** A table is a tree: the root is a directory and every other node sits in
      a directory under a nonempty name. */
  ghost predicate WellFormed(t: Table) {
    && [] in t && t[[]].DirNode?
    && (forall p {:trigger Parent(p)} | p in t && p != [] :: Parent(p) in t && t[Parent(p)].DirNode?)
    && (forall p | p in t && p != [] :: p[|p| - 1] != "")
  }

  predicate IsFile(t: Table, p: Path) {
    p in t && t[p].FileNode?
  }

  predicate IsDir(t: Table, p: Path) {
    p in t && t[p].DirNode?
  }

  predicate IsReadable(t: Table, p: Path) {
    p in t && t[p].readable
  }

  predicate IsWritable(t: Table, p: Path) {
    p in t && t[p].writable
  }

  /** realpath(): the canonical path of an existing node, `false` otherwise. */
  function RealPath(t: Table, p: Path): (r: Option<Path>)
    ensures r.Some? <==> p in t
  {
    if p in t then Some(p) else None
  }

  /** SplFileInfo::getBasename(): the last component, "" for null and the root. */
  function Basename(p: Option<Path>): Name {
    if p.None? || p.value == [] then "" else p.value[|p.value| - 1]
  }

  /** SplFileInfo::getPath(): the directory part, the root for null. */
  function DirOf(p: Option<Path>): Path {
    if p.None? || p.value == [] then [] else Parent(p.value)
  }

  /** `dir . DIRECTORY_SEPARATOR . name`; a trailing separator names dir itself. */
  function Child(dir: Path, name: Name): (r: Path)
    ensures name != "" ==> r != [] && Parent(r) == dir
  {
    if name == "" then dir else dir + [name]
  }

  /** The entries a directory listing yields. */
  function Children(t: Table, d: Path): set<Path> {
    set q | q in t && |q| == |d| + 1 && d < q
  }

  /** Every node strictly below r. */
  function Below(t: Table, r: Path): set<Path> {
    set q | q in t && r < q
  }

  /** A directory the iterators can open. */
  predicate Listable(t: Table, p: Option<Path>) {
    p.Some? && IsDir(t, p.value) && t[p.value].readable
  }

  /** A new node may be made at p. */
  predicate CanCreate(t: Table, p: Path) {
    && p != [] && p[|p| - 1] != "" && p !in t && |p| <= MaxDepth
    && IsDir(t, Parent(p)) && t[Parent(p)].writable
  }

  /** mkdir($p, 0777) */
  function Mkdir(t: Table, p: Option<Path>): (r: Option<Table>)
    ensures r.Some? <==> p.Some? && CanCreate(t, p.value)
    ensures WellFormed(t) && r.Some? ==> WellFormed(r.value)
  {
    if p.Some? && CanCreate(t, p.value) then Some(t[p.value := DirNode(true, true)]) else None
  }

  /** rmdir($p): only an empty directory goes. */
  function Rmdir(t: Table, p: Option<Path>): (r: Option<Table>)
    ensures r.Some? <==> p.Some? && p.value != [] && IsDir(t, p.value) && Children(t, p.value) == {}
                         && IsWritable(t, Parent(p.value))
    ensures r.Some? ==> r.value == t - {p.value}
    ensures WellFormed(t) && r.Some? ==> WellFormed(r.value)
  {
    if p.Some? && p.value != [] && IsDir(t, p.value) && Children(t, p.value) == {}
       && IsWritable(t, Parent(p.value))
    then
      Some(t - {p.value})
    else None
  }

  /** unlink($p) */
  function Unlink(t: Table, p: Option<Path>): (r: Option<Table>)
    ensures r.Some? <==> p.Some? && p.value != [] && IsFile(t, p.value) && IsWritable(t, Parent(p.value))
    ensures r.Some? ==> r.value == t - {p.value}
    ensures WellFormed(t) && r.Some? ==> WellFormed(r.value)
  {
    if p.Some? && p.value != [] && IsFile(t, p.value) && IsWritable(t, Parent(p.value))
    then Some(t - {p.value})
    else None
  }

  /** fopen($p, 'w') or fopen($p, 'w+'): truncates an existing file it may
      open, or creates an empty one. Mode w+ also needs read permission. */
  function Open(t: Table, p: Option<Path>, plus: bool): (r: Option<Table>)
    ensures r.Some? <==> p.Some? && (if p.value in t
                                     then IsFile(t, p.value) && t[p.value].writable && (plus ==> t[p.value].readable)
                                     else CanCreate(t, p.value))
    ensures r.Some? ==> IsFile(r.value, p.value) && r.value[p.value].content == ""
    ensures r.Some? && p.value in t ==> r.value == t[p.value := t[p.value].(content := "")]
    ensures r.Some? && p.value !in t ==> r.value == t[p.value := FileNode("", true, true)]
    ensures WellFormed(t) && r.Some? ==> WellFormed(r.value)
  {
    if p.None? then None
    else if p.value in t then
      var n := t[p.value];
      if n.FileNode? && n.writable && (plus ==> n.readable) then Some(t[p.value := n.(content := "")]) else None
    else if CanCreate(t, p.value) then Some(t[p.value := FileNode("", true, true)])
    else None
  }

  /** fopen($p, 'w'); fwrite($f, $s); fclose($f) */
  function PutContents(t: Table, p: Option<Path>, s: string): (r: Option<Table>)
    ensures r.Some? <==> Open(t, p, false).Some?
    ensures r.Some? ==> r.value.Keys == t.Keys + {p.value} && IsFile(r.value, p.value)
                        && r.value[p.value].content == s
                        && forall q | q in t && q != p.value :: r.value[q] == t[q]
    ensures r.Some? && p.value in t ==> r.value[p.value] == t[p.value].(content := s)
    ensures WellFormed(t) && r.Some? ==> WellFormed(r.value)
  {
    match Open(t, p, false)
    case None => None
    case Some(o) => Some(o[p.value := o[p.value].(content := s)])
  }

  /** file_get_contents($p): the content of a readable file. A readable
      directory opens too, and its first read fails, which yields "". */
  function ReadFile(t: Table, p: Option<Path>): (r: Option<string>)
    ensures r.Some? <==> p.Some? && p.value in t && t[p.value].readable
    ensures r.Some? && IsFile(t, p.value) ==> r.value == t[p.value].content
    ensures r.Some? && IsDir(t, p.value) ==> r.value == ""
  {
    if p.Some? && p.value in t && t[p.value].readable then
      match t[p.value]
      case FileNode(c, _, _) => Some(c)
      case DirNode(_, _) => Some("")
    else None
  }

  /** copy($a, $b): the target file is overwritten or created; a directory
      target and copying a file onto itself fail. */
  function CopyFile(t: Table, a: Option<Path>, b: Path): (r: Option<Table>)
    ensures r.Some? <==> && a.Some? && IsFile(t, a.value) && t[a.value].readable && a.value != b
                         && (if b in t then IsFile(t, b) && t[b].writable else CanCreate(t, b))
    ensures r.Some? ==> r.value.Keys == t.Keys + {b} && IsFile(r.value, b)
                        && r.value[b].content == t[a.value].content
                        && forall q | q in t && q != b :: r.value[q] == t[q]
    ensures r.Some? && b !in t ==> r.value[b] == FileNode(t[a.value].content, true, true)
    ensures WellFormed(t) && r.Some? ==> WellFormed(r.value)
  {
    if a.Some? && IsFile(t, a.value) && t[a.value].readable && a.value != b then
      var c := t[a.value].content;
      if b in t then
        if IsFile(t, b) && t[b].writable then Some(t[b := t[b].(content := c)]) else None
      else if CanCreate(t, b) then Some(t[b := FileNode(c, true, true)])
      else None
    else None
  }

  /** The table with every node at or below r taken out. */
  function RemoveTree(t: Table, r: Path): (u: Table)
    ensures forall q :: q in u <==> q in t && !(r <= q)
    ensures forall q | q in u :: u[q] == t[q]
    ensures WellFormed(t) && r != [] ==> WellFormed(u)
  {
    map q | q in t && !(r <= q) :: t[q]
  }

  /** The path of q below a, carried over to below b. */
  function Rebase(q: Path, a: Path, b: Path): (r: Path)
    requires a <= q
    ensures b <= r && |r| == |b| + |q| - |a| && a + r[|b|..] == q
  {
    b + q[|a|..]
  }

  /** The keys of the subtree at a carried over to b. */
  function MovedKeys(t: Table, a: Path, b: Path): set<Path> {
    set q | q in t && a <= q :: Rebase(q, a, b)
  }

  /** The subtree at a, carried over to b. */
  function Moved(t: Table, a: Path, b: Path): Table {
    map k | k in MovedKeys(t, a, b) :: t[a + k[|b|..]]
  }

  /** The table after the node at a and everything below it moved to b
      (replacing b, which holds nothing below it). */
  function Relocate(t: Table, a: Path, b: Path): Table {
    (map q | q in t && !(a <= q) && q != b :: t[q]) + Moved(t, a, b)
  }

  /** The conditions under which rename($a, $b) succeeds. */
  predicate RenameAllowed(t: Table, a: Path, b: Path) {
    && a != [] && b != [] && a in t && |b| <= MaxDepth
    && IsDir(t, Parent(b)) && IsWritable(t, Parent(b)) && IsWritable(t, Parent(a))
    && !(a < b)
    && (|| b !in t || a == b
        || (t[a].FileNode? && t[b].FileNode?)
        || (t[a].DirNode? && t[b].DirNode? && Children(t, b) == {}))
  }

  /** rename($a, $b): moves a file or a whole directory to b; a file may
      replace a file and a directory an empty directory. */
  function Rename(t: Table, a: Option<Path>, b: Path): (r: Option<Table>)
    ensures r.Some? <==> a.Some? && RenameAllowed(t, a.value, b) && Basename(Some(b)) != ""
  {
    if a.Some? && RenameAllowed(t, a.value, b) && Basename(Some(b)) != "" then
      Some(if a.value == b then t else Relocate(t, a.value, b))
    else None
  }

  /** Every ancestor of a node of a well-formed table is a directory of it. */
  lemma {:induction false} AncestorIsDir(t: Table, q: Path, r: Path)
    requires WellFormed(t) && q in t && r < q
    ensures IsDir(t, r)
    decreases |q|
  {
    if r != Parent(q) {
      assert r < Parent(q);
      AncestorIsDir(t, Parent(q), r);
    }
  }

  /** Nothing sits below a missing path, a file or an empty directory. */
  lemma NothingBelow(t: Table, r: Path)
    requires WellFormed(t) && (IsDir(t, r) ==> Children(t, r) == {})
    ensures forall q | q in t :: !(r < q)
  {
    forall q | q in t && r < q ensures false {
      if IsDir(t, r) {
        ChildOfBelow(t, r, q);
      } else {
        AncestorIsDir(t, q, r);
      }
    }
  }

  /** The children of a directory are exactly the nodes one level below it. */
  lemma ChildOfBelow(t: Table, r: Path, q: Path)
    requires WellFormed(t) && q in t && r < q
    ensures q[..|r| + 1] in Children(t, r)
  {
    var c := q[..|r| + 1];
    if c != q {
      assert c < q;
      AncestorIsDir(t, q, c);
    }
  }

  /** A nonempty set of paths below r holds one with no children in t: a
      deepest one. This is the node a child-first traversal may take next. */
  lemma {:induction false} DeepestHasNoChildren(t: Table, r: Path, s: set<Path>) returns (p: Path)
    requires s != {} && Below(t, r) <= s && s <= Below(t, r)
    ensures p in s && Children(t, p) == {}
  {
    p := Deepest(s);
  }

  /** A path of maximal length in a finite nonempty set. */
  lemma {:induction false} Deepest(s: set<Path>) returns (p: Path)
    requires s != {}
    ensures p in s && forall q | q in s :: |q| <= |p|
    decreases |s|
  {
    var x :| x in s;
    if s == {x} {
      p := x;
    } else {
      var y := Deepest(s - {x});
      p := if |x| <= |y| then y else x;
    }
  }

  /** Where the nodes of a relocated table come from: below b from the
      subtree at a, elsewhere from the same place, except at or below a. */
  lemma RelocateAt(t: Table, a: Path, b: Path, k: Path)
    requires WellFormed(t) && RenameAllowed(t, a, b) && a != b
    ensures k in Relocate(t, a, b) <==>
              if b <= k then a + k[|b|..] in t else k in t && !(a <= k)
    ensures k in Relocate(t, a, b) ==>
              Relocate(t, a, b)[k] == if b <= k then t[a + k[|b|..]] else t[k]
  {
    NothingBelow(t, b);
    if b <= k && a + k[|b|..] in t {
      assert Rebase(a + k[|b|..], a, b) == k;
      assert k in MovedKeys(t, a, b);
    }
    if k in MovedKeys(t, a, b) {
      var q :| q in t && a <= q && k == Rebase(q, a, b);
      assert q == a + k[|b|..];
    }
  }

  /** No node at or below a is left once its subtree is relocated. */
  lemma RelocateLeavesNothingAt(t: Table, a: Path, b: Path, k: Path)
    requires WellFormed(t) && RenameAllowed(t, a, b) && a != b
    requires k in Relocate(t, a, b)
    ensures !(a <= k)
  {
    RelocateAt(t, a, b, k);
    NothingBelow(t, b);
    assert !(b < a);
  }

  /** Where a node of the relocated table comes from. */
  function SourceOf(a: Path, b: Path, k: Path): Path {
    if b <= k then a + k[|b|..] else k
  }

  /** The relocated table u, described one path at a time (RelocateAt for
      every path). */
  ghost predicate RelocatedFrom(t: Table, a: Path, b: Path, u: Table) {
    forall k :: && (k in u <==> SourceOf(a, b, k) in t && (b <= k || !(a <= k)))
                && (k in u ==> u[k] == t[SourceOf(a, b, k)])
  }

  lemma RelocateCharacterized(t: Table, a: Path, b: Path)
    requires WellFormed(t) && RenameAllowed(t, a, b) && a != b
    ensures RelocatedFrom(t, a, b, Relocate(t, a, b))
  {
    forall k ensures && (k in Relocate(t, a, b) <==> SourceOf(a, b, k) in t && (b <= k || !(a <= k)))
                     && (k in Relocate(t, a, b) ==> Relocate(t, a, b)[k] == t[SourceOf(a, b, k)])
    {
      RelocateAt(t, a, b, k);
    }
  }

  /** The parent of a node of a relocated table is one of its directories. */
  lemma RelocateParent(t: Table, a: Path, b: Path, u: Table, k: Path)
    requires WellFormed(t) && RenameAllowed(t, a, b) && a != b && RelocatedFrom(t, a, b, u)
    requires k in u && k != []
    ensures Parent(k) in u && u[Parent(k)].DirNode?
  {
    if b <= k {
      RelocateParentBelow(t, a, b, u, k);
    } else {
      assert SourceOf(a, b, k) == k;
      assert !(b <= Parent(k)) && !(a <= Parent(k));
      assert SourceOf(a, b, Parent(k)) == Parent(k);
    }
  }

  lemma RelocateParentBelow(t: Table, a: Path, b: Path, u: Table, k: Path)
    requires WellFormed(t) && RenameAllowed(t, a, b) && a != b && RelocatedFrom(t, a, b, u)
    requires k in u && b <= k
    ensures Parent(k) in u && u[Parent(k)].DirNode?
  {
    if k == b {
      assert !(a <= Parent(b)) && !(b <= Parent(b));
      assert SourceOf(a, b, Parent(b)) == Parent(b);
    } else {
      var q := a + k[|b|..];
      assert SourceOf(a, b, k) == q;
      assert a < q;
      assert b <= Parent(k) && SourceOf(a, b, Parent(k)) == Parent(q);
    }
  }

  /** Every node of a relocated table but the root keeps a nonempty name. */
  lemma RelocateName(t: Table, a: Path, b: Path, u: Table, k: Path)
    requires WellFormed(t) && RenameAllowed(t, a, b) && a != b && Basename(Some(b)) != ""
    requires RelocatedFrom(t, a, b, u) && k in u && k != []
    ensures k[|k| - 1] != ""
  {
    var q := SourceOf(a, b, k);
    if b < k {
      assert k[|k| - 1] == q[|q| - 1];
    }
  }

  /** Relocating a subtree to a place rename() accepts keeps the table a
      tree, carries every node of the subtree over with its content, leaves
      nothing at or below the old place and keeps every other node but b. */
  lemma RelocateWellFormed(t: Table, a: Path, b: Path)
    requires WellFormed(t) && RenameAllowed(t, a, b) && a != b && Basename(Some(b)) != ""
    ensures WellFormed(Relocate(t, a, b))
    ensures forall q | q in t && a <= q :: Rebase(q, a, b) in Relocate(t, a, b)
                                          && Relocate(t, a, b)[Rebase(q, a, b)] == t[q]
    ensures forall q | q in Relocate(t, a, b) :: !(a <= q)
    ensures forall q | q in t && !(a <= q) && q != b :: q in Relocate(t, a, b) && Relocate(t, a, b)[q] == t[q]
  {
    var u := Relocate(t, a, b);
    NothingBelow(t, b);
    RelocateAt(t, a, b, []);
    RelocateCharacterized(t, a, b);
    forall k | k in u && k != [] ensures Parent(k) in u && u[Parent(k)].DirNode? && k[|k| - 1] != "" {
      RelocateParent(t, a, b, u, k);
      RelocateName(t, a, b, u, k);
    }
    forall q | q in t && a <= q ensures Rebase(q, a, b) in u && u[Rebase(q, a, b)] == t[q] {
      RelocateAt(t, a, b, Rebase(q, a, b));
    }
    forall k | k in u ensures !(a <= k) {
      RelocateLeavesNothingAt(t, a, b, k);
    }
    forall q | q in t && !(a <= q) && q != b ensures q in u && u[q] == t[q] {
      RelocateAt(t, a, b, q);
    }
  }

  /** rename() keeps the table a tree. */
  lemma RenameWellFormed(t: Table, a: Option<Path>, b: Path)
    requires WellFormed(t) && Rename(t, a, b).Some?
    ensures WellFormed(Rename(t, a, b).value)
  {
    if a.value != b {
      RelocateWellFormed(t, a.value, b);
    }
  }

  /** A child of d is d followed by its basename. */
  lemma ChildOfListing(t: Table, d: Path, c: Path)
    requires WellFormed(t) && c in Children(t, d)
    ensures c[|d|] != "" && Child(d, c[|d|]) == c
  {
    assert Parent(c) == d;
  }

  /** After a successful rename() the node that was at a is at b, and
      nothing is left at a. */
  lemma RenameMovesNode(t: Table, a: Option<Path>, b: Path)
    requires WellFormed(t) && Rename(t, a, b).Some?
    ensures b in Rename(t, a, b).value && Rename(t, a, b).value[b] == t[a.value]
    ensures a.value != b ==> a.value !in Rename(t, a, b).value
  {
    if a.value != b {
      RelocateAt(t, a.value, b, b);
      assert a.value + b[|b|..] == a.value;
      if a.value in Relocate(t, a.value, b) {
        RelocateLeavesNothingAt(t, a.value, b, a.value);
      }
    }
  }
}
